=== FILE: README.md ===
# mongoimport ingestion core in Dafny

This project models two sequential parts of `mongoimport`.

**The buffered bulk-insert engine** is in `common/db/buffered_bulk.go`.
- A `BufferedBulkInserter` BSON-encodes each document, counts it (`docCount`, `byteCount`) and queues it on a `BulkInserter`.
- It sends the queue to the server when a count or size limit is reached: `MaxBulkSize = 16790000` bytes, `BulkDocLimit = 1000` documents, or the configured `docLimit`.
- The two bulk inserters are modelled as one datatype:
  - `WriteCommandBulk` sends one `insert` command whose `ordered` field is the negation of its `unordered` flag.
  - `LegacyBulkInserter` queues the documents on a driver bulk and re-applies its unordered flag on every `Reset`.
- The server is abstract (`Server`): the reply to a write command, and the outcome of running a driver bulk.
- The BSON encoder is abstract too (`Encoder`): it returns the raw bytes of a document, or a failure.
- `Flush` and `Insert` return a `Step`. A `Step` also lists the batches sent to the server during the call, so "no flush happened" and "how many batches were sent" can be stated.

**The import driver** is in `mongoimport/mongoimport.go`.
- `ValidateSettings` checks and normalises the options record (`ImportOptions`). It runs as the same steps, in the same order, as the source.
- The read loop of `runInsertionWorker` is modelled as a pure function over the events one worker observes (`InsertionWorker.RunWorker`). The events are: a document, the channel closed, or the run dying. The inserter is an abstract `Insert`/`Flush` pair.
- The `upserter` is one inserter of that kind. Its state is the log of the writes it has issued.
- `ingestDocuments` keeps only the first worker error, and only that error kills the run.

The helpers this core calls but does not define are parameters. These are the database-name, collection-name and upsert-field validators, `filepath.Base`, `filterIngestError`, `removeBlankFields` and `constructUpsertDocument`.

## Behaviour the model reproduces

The model follows the code where the code differs from what its comments and the tool's design describe.
- `Flush` resets the bulk but never zeroes `docCount` or `byteCount`. Only `resetBulk` zeroes them, and nothing calls `resetBulk`.
- As a result, once one non-empty flush has happened, every later `Insert` flushes again (`SaturatedSendsOneBatchPerDocument`).
- Take 2,500 documents and the default batch size of 10000, capped at 1000, starting from a new inserter. The first batch holds 1000 documents. After that, each document goes out in its own batch. The `Insert` calls send 1,500 batches, and the final `Flush` sends one more, holding the last document: 1,501 batches, not 3 (`BatchesFromFreshInserter`).
- A second `Flush` is not a no-op: it sends an empty batch (`FlushTwiceSendsEmptyBatch`).
- The per-batch limits still hold (`AllBatchesWithinLimits`). A batch never has more than 1000 documents, or more than max(configured limit, 1). It goes over `MaxBulkSize` bytes only when it is a single document. Such a document is sent alone. The inserter raises no error of its own for it.
- `Insert` queues and counts an encodable document even when the flush it triggered failed. It then returns that flush's error, so the error is reported one call late.
- `NewBufferedBulkInserter` calls `Reset` on the bulk but never makes it unordered for `continueOnError`. Only `resetBulk` would.
- `NewLegacyBulk(c, false)` records the unordered flag, but its first driver bulk stays ordered until the first `Reset`.
- In `WriteCommandBulk.Run`, the check `err != nil ||` at line 173 is dead code. The root error of the returned `ErrWriteCommandBulk` is therefore always nil.
- `mongoimport.go:432` calls `NewBufferedBulkInserter` with three arguments, but `buffered_bulk.go:27-28` declares four. `mongoimport.go:434` calls an `Unordered` method that `BufferedBulkInserter` does not declare. Each file is modelled against its own signatures. The worker's choice of inserter is therefore the data `InserterChoice`, and it is not linked to `BufferedBulk`.

## Model

| member | source | states |
|---|---|---|
| `BulkInserters.NewWriteCommandBulk` | common/db/buffered_bulk.go:180-189 | a new command bulk is empty, names the collection, stores the given write concern, and runs unordered exactly when `ordered` is false |
| `BulkInserters.NewLegacyBulk` | common/db/buffered_bulk.go:113-121 | a new legacy bulk records `!ordered`, but its driver bulk is ordered; its flag and mode agree only when `ordered` |
| `BulkInserters.Reset` | common/db/buffered_bulk.go:92-97 | reset empties the queue and keeps the flag; the legacy variant's new driver bulk is made unordered exactly when the flag is set (the command variant's `Reset`, lines 148-150, only empties the list) |
| `BulkInserters.SetUnordered` | common/db/buffered_bulk.go:99-102 | `Unordered` sets the flag and (legacy) the driver bulk's mode, leaving the queue alone; the command variant (lines 152-154) sets only the flag |
| `BulkInserters.Insert` | common/db/buffered_bulk.go:156-158 | insert appends the document after those queued, in order, and changes nothing else |
| `BulkInserters.RequestOf` | common/db/buffered_bulk.go:162-167 | the command sent carries every queued document in order, the collection name, the write concern, and `ordered == !unordered` |
| `BulkInserters.ReplyError` | common/db/buffered_bulk.go:168-177 | an error from `Database.Run` is returned unchanged; a reply with write errors gives an error carrying exactly those errors and no root error; an empty list gives nil |
| `BulkInserters.Run` | common/db/buffered_bulk.go:160-177 | `Run` sends an insert command with `ordered == !unordered` and the queued documents and maps its reply as above; the legacy variant (lines 108-111) returns the driver's outcome for its bulk |
| `BulkInserters.WriteCommandRunSucceeds` | common/db/buffered_bulk.go:168-177 | a command run returns nil iff the server answered without error and with an empty `writeErrors` |
| `BulkInserters.LegacyFlagPersists` | common/db/buffered_bulk.go:92-102 | once an inserter of either variant is set unordered, it stays unordered and runs unordered after any sequence of inserts, resets and further `Unordered` calls; the legacy variant re-applies the flag to every fresh driver bulk |
| `BulkInserters.LegacyConstructorNeedsReset` | common/db/buffered_bulk.go:113-121 | a legacy inserter built unordered runs ordered until its first `Reset` |
| `BufferedBulk.NewBufferedBulkInserter` | common/db/buffered_bulk.go:27-37 | the new inserter has zero counters and an empty reset bulk that keeps the given bulk's variant, collection, write concern and flag; its mode is the bulk's own flag, and `continueOnError` does not make it unordered, neither now nor after later resets |
| `BufferedBulk.NewInserterValid` | common/db/buffered_bulk.go:27-37 | a new inserter satisfies the batch-limit invariant |
| `BufferedBulk.ResetBulk` | common/db/buffered_bulk.go:40-47 | `resetBulk` zeroes both counters and installs the given bulk with its documents, collection, variant and write concern; it is made unordered iff `continueOnError`, and is otherwise installed unchanged |
| `BufferedBulk.Flush` | common/db/buffered_bulk.go:68-77 | with `docCount == 0`: nil, nothing sent, nothing changed; otherwise exactly the queued batch is sent, `Run`'s error is returned, the bulk is reset whatever `Run` returned, and the counters are unchanged |
| `BufferedBulk.Insert` | common/db/buffered_bulk.go:51-65 | an encoding failure returns an error and changes and sends nothing; otherwise the queued batch is sent iff `docCount >= docLimit`, `byteCount + size > MaxBulkSize` or `docCount >= BulkDocLimit` (and `docCount > 0`); the document is then queued, `docCount` rises by 1 and `byteCount` by its size, and the flush's error is returned; the bulk keeps its variant, collection, write concern and flag, and is reset only when the batch was sent |
| `BufferedBulk.QueuesBelowLimits` | common/db/buffered_bulk.go:57-63 | while the count stays within both the configured limit and 1000, and the bytes within `MaxBulkSize`, inserts only queue and count, sending nothing |
| `BufferedBulk.InsertWithinLimits` | common/db/buffered_bulk.go:57-63 | `Insert` preserves the batch-limit invariant, and any batch it sends is within the limits |
| `BufferedBulk.FlushWithinLimits` | common/db/buffered_bulk.go:68-77 | `Flush` preserves the invariant, and what it sends is within the limits |
| `BufferedBulk.AllBatchesWithinLimits` | common/db/buffered_bulk.go:51-77 | for any document sequence, every batch sent has at most 1000 documents and at most `max(docLimit, 1)`, and over `MaxBulkSize` bytes only as a single document |
| `BufferedBulk.FirstFlushSaturates` | common/db/buffered_bulk.go:57-64 | the first `Insert` that sends a batch leaves counters that make every later `Insert` flush, with one document queued |
| `BufferedBulk.SaturatedInsertFlushes` | common/db/buffered_bulk.go:57-64 | from such counters, each encodable document sends exactly the previously queued batch and is then queued alone |
| `BufferedBulk.SaturatedSendsOneBatchPerDocument` | common/db/buffered_bulk.go:51-77 | from such counters, a sequence of inserts sends one batch per encodable document; every batch after the first holds one document |
| `BufferedBulk.FlushTwiceSendsEmptyBatch` | common/db/buffered_bulk.go:68-77 | flushing twice with documents counted sends a second, empty batch |
| `BufferedBulk.BatchesFromFreshInserter` | common/db/buffered_bulk.go:51-77 | from a new inserter with a positive limit, where L = min(limit, 1000): more than L documents, the first L fitting in `MaxBulkSize`, give a first batch of those L documents, then one batch per further document, so `|docs| - L` batches from the inserts; the final `Flush` sends one more batch, holding the last document |
| `Text.ToLower` | mongoimport/mongoimport.go:92 | lower-casing keeps the length, maps each ASCII upper-case letter to its lower-case counterpart, and leaves every other character unchanged |
| `Text.Split` | mongoimport/mongoimport.go:146 | splitting on ',' gives at least one part, no part contains ',', and joining the parts with ',' gives back the input |
| `Text.SplitCount` | mongoimport/mongoimport.go:146 | the split has one more part than the input has separators |
| `Text.SplitJoin` | mongoimport/mongoimport.go:146 | splitting the join of separator-free parts gives back the parts |
| `Text.LastIndexOf` | mongoimport/mongoimport.go:204-207 | the last index of '.' is -1 iff there is none; otherwise it holds '.' and no '.' follows it |
| `ImportOptions.DatabaseName` | mongoimport/mongoimport.go:84-86 | an empty database name becomes "test"; a given name is kept |
| `ImportOptions.CheckDatabase` | mongoimport/mongoimport.go:83-90 | an empty database becomes "test" and a given one is kept; the step fails iff the resulting name is invalid, with that name in the error |
| `ImportOptions.InputType` | mongoimport/mongoimport.go:92-96 | the normalised type is the lower-cased input, or "json" when the input is empty |
| `ImportOptions.CheckType` | mongoimport/mongoimport.go:92-102 | the step succeeds iff the lower-cased type is empty, "csv", "tsv" or "json"; on success the type is "json" if it was empty, and otherwise the lower-cased input; otherwise the error names the lower-cased type |
| `ImportOptions.CheckFieldSources` | mongoimport/mongoimport.go:104-142 | succeeds, changing nothing, iff the field-source rules hold (CSV/TSV: exactly one of header line, fields, field file, with the field file non-empty; JSON: none of them and no `--ignoreBlanks`); each error is returned iff its source branch is the first one taken, so for CSV with `--fields` and an empty `--fieldFile` the empty field file is reported, not the conflict |
| `ImportOptions.ApplyUpsert` | mongoimport/mongoimport.go:144-157 | non-empty `UpsertFields` turns upsert on with keys its comma-split, failing iff those are invalid; upsert without fields keys on `["_id"]`; upsert forces `MaintainInsertionOrder`; nothing else changes |
| `ImportOptions.ApplyWorkerDefaults` | mongoimport/mongoimport.go:159-180 | afterwards there is at least one insertion worker; a non-positive request becomes exactly 1; exactly 1 when order is kept; a positive request is kept otherwise; a non-positive batch size becomes 10000; decoding workers default to `MaxProcs` |
| `ImportOptions.InputFile` | mongoimport/mongoimport.go:193-198 | a given `--file` is kept; otherwise the positional argument, if any, becomes the file |
| `ImportOptions.ApplyPositionalArgs` | mongoimport/mongoimport.go:182-198 | fails iff there is more than one positional argument, or `--file` together with one (that error first); otherwise only the file changes |
| `ImportOptions.CollectionFromFile` | mongoimport/mongoimport.go:200-210 | the default collection is the base name minus its last '.' and the dot-free extension after it; a base name without '.' is kept whole |
| `ImportOptions.CollectionName` | mongoimport/mongoimport.go:200-210 | a given collection name is kept; an empty one is taken from the input file's base name |
| `ImportOptions.CheckCollection` | mongoimport/mongoimport.go:200-214 | the step fails iff the collection name is invalid, where an empty name is defaulted from the input file; on success only the collection changes |
| `ImportOptions.ValidateSettings` | mongoimport/mongoimport.go:82-216 | succeeds exactly on the options `Acceptable` describes rule by rule; a validated result has a database, a known type, allowed field sources, at least one worker, upsert implying ordered single-worker mode with at least one key, and a positive batch size; it defaults the database to "test", the type to "json" (and otherwise lower-cases it), and the collection to the one derived from the input file; the batch size becomes 10000 when non-positive and is otherwise kept; the upsert keys are the comma-split `--upsertFields`, or `["_id"]` for plain `--upsert`; insertion order is kept iff asked for or upserting; the insertion worker count is 1 in that case or for a non-positive request, and otherwise the requested count |
| `ImportOptions.ValidateSettingsKeepsOthers` | mongoimport/mongoimport.go:159-162 | after validation, a non-positive decoding-worker count becomes `MaxProcs` and a positive one is kept; `MaxProcs`, `--fields`, `--fieldFile`, `--headerline`, `--upsertFields`, `--ignoreBlanks`, `--stopOnError` and the remaining input options are unchanged |
| `ImportOptions.ValidateSettingsFirstError` | mongoimport/mongoimport.go:82-216 | a rejected option set gets the error of the first rule broken, in source order: invalid database name, unknown type, the field-source error `CheckFieldSources` reports for the normalised type, invalid upsert fields, too many positional arguments or `--file` with one, invalid collection name |
| `ImportOptions.UpsertRunsOneWorker` | mongoimport/mongoimport.go:154-175 | after validation, upsert runs in ordered mode with exactly one insertion worker |
| `InsertionWorker.RunWorker` | mongoimport/mongoimport.go:438-459 | the insertion count only grows, and by at most one per event |
| `InsertionWorker.RunWorkerCharacterised` | mongoimport/mongoimport.go:438-459 | the loop equals the reference description `Expected` on every event sequence: the count rises by exactly the number of leading documents whose filtered `Insert` is nil; the first non-nil filtered error ends the loop with that error; otherwise dying ends it with no `Flush`, and channel close ends it with the filtered `Flush` result |
| `InsertionWorker.Returned` | mongoimport/mongoimport.go:449-459 | the worker returns nil when dying, the insert's error on failure, and the filtered flush result on close |
| `InsertionWorker.LaterEventsIgnored` | mongoimport/mongoimport.go:438-457 | events after the one that ends the loop make no difference |
| `InsertionWorker.UpserterWrite` | mongoimport/mongoimport.go:476-486 | the write is a plain insert iff no selector can be built, otherwise an upsert with that selector, always of the document given |
| `InsertionWorker.UpserterInsert` | mongoimport/mongoimport.go:476-486 | `upserter.Insert` issues exactly one write, at once, of the given document: a plain insert iff no selector can be built, otherwise an upsert with the selector `constructUpsertDocument` built; it returns that write's error |
| `InsertionWorker.UpserterFlush` | mongoimport/mongoimport.go:488-492 | `upserter.Flush` writes nothing and returns nil |
| `InsertionWorker.UpserterLosesNothing` | mongoimport/mongoimport.go:476-492 | with the upserter, a worker that dies or drains has written every document it received, in order, and counted each; draining returns the filtered nil |
| `InsertionWorker.ChooseInserter` | mongoimport/mongoimport.go:426-436 | the upserter is chosen iff upsert is on; otherwise the document limit is the batch size, `continueOnError == !StopOnError`, and unordered is asked for iff order is not kept; blanks are stripped iff `IgnoreBlanks` and the type is not JSON |
| `InsertionWorker.ValidatedChoice` | mongoimport/mongoimport.go:426-436 | after validation, blanks are stripped exactly when `--ignoreBlanks` was given, a bulk inserter's limit is positive, and the upserter runs with one ordered worker |
| `InsertionWorker.PoolSize` | mongoimport/mongoimport.go:356-359 | exactly the requested number of workers is started when that is positive, and exactly one otherwise |
| `InsertionWorker.IngestDocuments` | mongoimport/mongoimport.go:371-386 | the result is nil iff every worker returned nil; otherwise it is the first non-nil result in completion order, and `Kill` is called exactly once |

## Left out

- File and stdin input (`getSourceReader`, `ImportDocuments`), the progress bar and `fileSizeProgressor` are left out. They are I/O and UI.
- `getInputReader`, the CSV/TSV/JSON readers, `validateReaderFields` and `util.GetFieldsFromFile` are left out. They are format decoding and file I/O.
- The session and server set-up in `importDocuments` and `runInsertionWorker` is left out: `GetSession`, `GetNodeType`, `configureSession`, `BuildWriteConcern`, `DropCollection` and the host string. These are network calls. The worker model starts at the read loop.
- The goroutines, `tomb`, `sync.WaitGroup`, `sync.Mutex` and `channelQuorumError` are left out. The `select` between a document and `Dying` is resolved by the order of the event sequence. The order in which workers take the mutex is the order of `IngestDocuments`' input.
- `bson.Marshal`, `Database.Run` and the driver's `Bulk.Run` are abstract functions. The server's answer is a function of the request, so a server that answers the same request differently over time is not modelled.
- `ErrWriteCommandBulk.Error` (message formatting) is left out. So are the debug `fmt.Println` at buffered_bulk.go:161 and all logging.
- The `collection` field of `BufferedBulkInserter` is left out; the code shown never reads it.
- The validators `util.ValidateDBName`, `util.ValidateCollectionName` and `validateFields`, and `filepath.Base`, are parameters (`Collaborators`). `filterIngestError`, `removeBlankFields` and `constructUpsertDocument` are parameters too. Their code is not part of this model.
- ImportOptions.ValidateSettings: on an error it returns only the error. The source has by then already changed some options in place, for example the database default. Callers stop on the error, so that partial change is not modelled.
- Text.ToLower: maps only the ASCII letters A-Z, while Go's `strings.ToLower` also lower-cases other Unicode letters. No non-ASCII letter lower-cases to one of "csv", "tsv" or "json", so which types are accepted is unaffected. Only the text of an `UnknownType` error can differ.
- ImportOptions.CheckDatabase, ApplyUpsert and CheckCollection: their errors carry the rejected name or fields. In the source, they wrap the error the validator returned, and that error's text is not part of this model.
- InsertionWorker.RunWorker: the shared `insertionCount` is an unbounded `nat`, not a wrapping `uint64`. `docCount` and `byteCount` are likewise unbounded; in the source they are 64-bit ints.
- InsertionWorker.ChooseInserter: records the requested document limit, error policy and ordering as data. It does not build a `BufferedBulk` inserter, because the constructor it calls and the `Unordered` method it uses do not exist in buffered_bulk.go.

=== FILE: buffered_bulk.dfy ===
/** `BufferedBulkInserter` of common/db/buffered_bulk.go: documents are BSON-encoded,
    counted and queued on a `BulkInserter`, and the queue is sent to the server when a
    count or size limit is reached.

    The model follows the code as written: `Flush` sends and resets the bulk but never
    zeroes `docCount` or `byteCount`; only `resetBulk` does, and nothing calls it.  So
    once one non-empty flush has happened every later `Insert` flushes again, sending
    batches of one document, and a second `Flush` sends an empty batch. */
module BufferedBulk {
  import opened Wrappers
  import opened BulkInserters

  /** The largest batch, in encoded bytes, the inserter lets accumulate. */
  const MaxBulkSize: int := 16790000
  /** The largest batch, in documents, whatever the configured limit. */
  const BulkDocLimit: int := 1000

  datatype BufferedBulkInserter = BufferedBulkInserter(
    bulk: BulkInserter,
    continueOnError: bool,
    docLimit: int,
    byteCount: nat,
    docCount: nat)

  /** The outcome of one call: the new inserter, the error the call returns, and the
      batches it sent to the server, in order. */
  datatype Step = Step(inserter: BufferedBulkInserter, err: Option<Error>, sent: seq<Request>)

  /** The outcome of a sequence of `Insert` calls: one returned error per call. */
  datatype Trace = Trace(inserter: BufferedBulkInserter, errs: seq<Option<Error>>, sent: seq<Request>)

  /** The BSON encoder, abstract: the raw bytes of a document, or why it cannot be encoded. */
  type Encoder<!D> = D -> Result<Bytes, string>

  /** `NewBufferedBulkInserter`: zero counters and a reset bulk.  `continueOnError` is
      only recorded; the bulk is not made unordered here. */
  function NewBufferedBulkInserter(docLimit: int, continueOnError: bool, bulk: BulkInserter): (bb: BufferedBulkInserter)
    ensures bb.docCount == 0 && bb.byteCount == 0 && bb.bulk.docs == []
    ensures bb.docLimit == docLimit && bb.continueOnError == continueOnError
    ensures RunsUnordered(bb.bulk) == bulk.unordered && bb.bulk.collection == bulk.collection
    ensures bb.bulk.unordered == bulk.unordered
    ensures bb.bulk.WriteCommandBulk? == bulk.WriteCommandBulk?
    ensures bulk.WriteCommandBulk? ==> bb.bulk.writeConcern == bulk.writeConcern
    ensures RunsUnordered(Reset(bb.bulk)) == bulk.unordered
  {
    BufferedBulkInserter(Reset(bulk), continueOnError, docLimit, 0, 0)
  }

  /** `resetBulk`: installs `bulk`, marking it unordered when errors are to be skipped,
      and zeroes both counters.  The model states it; the code never calls it. */
  function ResetBulk(bb: BufferedBulkInserter, bulk: BulkInserter): (r: BufferedBulkInserter)
    ensures r.docCount == 0 && r.byteCount == 0
    ensures r.bulk.docs == bulk.docs && r.bulk.collection == bulk.collection
    ensures r.bulk.unordered == (bb.continueOnError || bulk.unordered)
    ensures bb.continueOnError ==> RunsUnordered(r.bulk) && Consistent(r.bulk)
    ensures !bb.continueOnError ==> r.bulk == bulk
    ensures r.bulk.WriteCommandBulk? == bulk.WriteCommandBulk?
    ensures bulk.WriteCommandBulk? ==> r.bulk.writeConcern == bulk.writeConcern
    ensures r.docLimit == bb.docLimit && r.continueOnError == bb.continueOnError
  {
    var installed := if bb.continueOnError then SetUnordered(bulk) else bulk;
    bb.(bulk := installed, byteCount := 0, docCount := 0)
  }

  /** The three conditions under which `Insert` flushes before queueing a document of
      `size` bytes. */
  predicate NeedsFlush(bb: BufferedBulkInserter, size: nat) {
    || bb.docCount >= bb.docLimit
    || bb.byteCount + size > MaxBulkSize
    || bb.docCount >= BulkDocLimit
  }

  /** `Flush`: with nothing counted it returns nil and touches nothing; otherwise it sends
      the queued batch, resets the bulk whether or not the send failed, and returns the
      send's error.  The counters are left as they were. */
  function Flush(bb: BufferedBulkInserter, server: Server): (r: Step)
    ensures bb.docCount == 0 ==> r == Step(bb, None, [])
    ensures bb.docCount > 0 ==>
      && r.sent == [RequestOf(bb.bulk)]
      && r.err == Run(bb.bulk, server)
      && r.inserter.bulk == Reset(bb.bulk)
      && r.inserter.docCount == bb.docCount
      && r.inserter.byteCount == bb.byteCount
    ensures r.inserter.docLimit == bb.docLimit && r.inserter.continueOnError == bb.continueOnError
  {
    if bb.docCount == 0 then
      Step(bb, None, [])
    else
      var err := Run(bb.bulk, server);
      Step(bb.(bulk := Reset(bb.bulk)), err, [RequestOf(bb.bulk)])
  }

  /** `Insert`: a document that cannot be encoded is refused with nothing changed.
      Otherwise the inserter flushes first when full, then queues the document and
      counts it whatever the flush returned, and returns the flush's error. */
  function Insert<D>(bb: BufferedBulkInserter, doc: D, encode: Encoder<D>, server: Server): (r: Step)
    ensures encode(doc).Failure? ==> r == Step(bb, Some(BsonEncoding(encode(doc).error)), [])
    ensures encode(doc).Success? ==>
      var raw := encode(doc).value;
      var flushes := NeedsFlush(bb, |raw|) && bb.docCount > 0;
      && r.inserter.docCount == bb.docCount + 1
      && r.inserter.byteCount == bb.byteCount + |raw|
      && r.inserter.bulk.docs == (if flushes then [] else bb.bulk.docs) + [raw]
      && r.sent == (if flushes then [RequestOf(bb.bulk)] else [])
      && r.err == (if flushes then Run(bb.bulk, server) else None)
      && RunsUnordered(r.inserter.bulk) == (if flushes then bb.bulk.unordered else RunsUnordered(bb.bulk))
      && r.inserter.bulk.(docs := []) == (if flushes then Reset(bb.bulk) else bb.bulk).(docs := [])
    ensures r.inserter.docLimit == bb.docLimit && r.inserter.continueOnError == bb.continueOnError
  {
    match encode(doc)
    case Failure(e) => Step(bb, Some(BsonEncoding(e)), [])
    case Success(raw) =>
      var pre := if NeedsFlush(bb, |raw|) then Flush(bb, server) else Step(bb, None, []);
      var queued := pre.inserter.(
        docCount := pre.inserter.docCount + 1,
        byteCount := pre.inserter.byteCount + |raw|,
        bulk := BulkInserters.Insert(pre.inserter.bulk, raw));
      Step(queued, pre.err, pre.sent)
  }

  /** `Insert` applied to each document in turn. */
  function InsertAll<D>(bb: BufferedBulkInserter, docs: seq<D>, encode: Encoder<D>, server: Server): Trace
    decreases |docs|
  {
    if docs == [] then
      Trace(bb, [], [])
    else
      var first := Insert(bb, docs[0], encode, server);
      var rest := InsertAll(first.inserter, docs[1..], encode, server);
      Trace(rest.inserter, [first.err] + rest.errs, first.sent + rest.sent)
  }

  // ---------------------------------------------------------------------------
  // Batch limits

  /** The total encoded size of a batch. */
  function TotalBytes(docs: seq<Bytes>): nat
  {
    if docs == [] then 0 else TotalBytes(docs[..|docs| - 1]) + |docs[|docs| - 1]|
  }

  /** The configured limit as the code applies it: a limit below one still lets one
      document through, because an empty inserter never flushes. */
  function EffectiveDocLimit(docLimit: int): int {
    if docLimit < 1 then 1 else docLimit
  }

  /** A batch the limits allow: at most `BulkDocLimit` and at most the configured number
      of documents, and at most `MaxBulkSize` bytes unless it is a single document. */
  predicate WithinLimits(docLimit: int, docs: seq<Bytes>) {
    && |docs| <= BulkDocLimit
    && |docs| <= EffectiveDocLimit(docLimit)
    && (|docs| <= 1 || TotalBytes(docs) <= MaxBulkSize)
  }

  /** The queued batch is within the limits and no larger than the counters say. */
  predicate Valid(bb: BufferedBulkInserter) {
    && WithinLimits(bb.docLimit, bb.bulk.docs)
    && |bb.bulk.docs| <= bb.docCount
    && TotalBytes(bb.bulk.docs) <= bb.byteCount
  }

  lemma TotalBytesAppend(docs: seq<Bytes>, raw: Bytes)
    ensures TotalBytes(docs + [raw]) == TotalBytes(docs) + |raw|
  {
    assert (docs + [raw])[..|docs|] == docs;
  }

  /** A new inserter is valid. */
  lemma NewInserterValid(docLimit: int, continueOnError: bool, bulk: BulkInserter)
    ensures Valid(NewBufferedBulkInserter(docLimit, continueOnError, bulk))
  {
  }

  /** `Insert` keeps the inserter valid, and every batch it sends is within the limits. */
  lemma InsertWithinLimits<D>(bb: BufferedBulkInserter, doc: D, encode: Encoder<D>, server: Server)
    requires Valid(bb)
    ensures Valid(Insert(bb, doc, encode, server).inserter)
    ensures forall req :: req in Insert(bb, doc, encode, server).sent ==>
      WithinLimits(bb.docLimit, req.Documents())
  {
    if encode(doc).Success? {
      var raw := encode(doc).value;
      if NeedsFlush(bb, |raw|) && bb.docCount > 0 {
        TotalBytesAppend([], raw);
      } else {
        TotalBytesAppend(bb.bulk.docs, raw);
      }
    }
  }

  /** `Flush` keeps the inserter valid and what it sends is within the limits. */
  lemma FlushWithinLimits(bb: BufferedBulkInserter, server: Server)
    requires Valid(bb)
    ensures Valid(Flush(bb, server).inserter)
    ensures forall req :: req in Flush(bb, server).sent ==> WithinLimits(bb.docLimit, req.Documents())
  {
  }

  /** However many documents are inserted, no batch sent exceeds the limits: more than
      `MaxBulkSize` bytes only ever goes out as a single document. */
  lemma {:induction false} AllBatchesWithinLimits<D>(
    bb: BufferedBulkInserter, docs: seq<D>, encode: Encoder<D>, server: Server)
    requires Valid(bb)
    ensures Valid(InsertAll(bb, docs, encode, server).inserter)
    ensures InsertAll(bb, docs, encode, server).inserter.docLimit == bb.docLimit
    ensures forall req :: req in InsertAll(bb, docs, encode, server).sent ==>
      WithinLimits(bb.docLimit, req.Documents())
    decreases |docs|
  {
    if docs != [] {
      var first := Insert(bb, docs[0], encode, server);
      InsertWithinLimits(bb, docs[0], encode, server);
      AllBatchesWithinLimits(first.inserter, docs[1..], encode, server);
    }
  }

  // ---------------------------------------------------------------------------
  // The counters are never reset

  /** An inserter whose counters alone make every further `Insert` flush a non-empty
      count, whatever the size of the next document. */
  predicate Saturated(bb: BufferedBulkInserter) {
    && bb.docCount >= 1
    && (bb.docCount >= bb.docLimit || bb.docCount >= BulkDocLimit || bb.byteCount > MaxBulkSize)
  }

  /** The first `Insert` that sends a batch leaves the inserter saturated with exactly
      the new document queued. */
  lemma FirstFlushSaturates<D>(bb: BufferedBulkInserter, doc: D, encode: Encoder<D>, server: Server)
    requires |Insert(bb, doc, encode, server).sent| > 0
    ensures Saturated(Insert(bb, doc, encode, server).inserter)
    ensures |Insert(bb, doc, encode, server).inserter.bulk.docs| == 1
  {
  }

  /** From a saturated inserter, every encodable document is sent on the next `Insert`:
      the call sends exactly the batch queued before it, and the inserter stays
      saturated with just the new document queued. */
  lemma SaturatedInsertFlushes<D>(bb: BufferedBulkInserter, doc: D, encode: Encoder<D>, server: Server)
    requires Saturated(bb)
    ensures Saturated(Insert(bb, doc, encode, server).inserter)
    ensures encode(doc).Success? ==>
      && Insert(bb, doc, encode, server).sent == [RequestOf(bb.bulk)]
      && Insert(bb, doc, encode, server).inserter.bulk.docs == [encode(doc).value]
    ensures encode(doc).Failure? ==> Insert(bb, doc, encode, server).sent == []
  {
  }

  /** How many of `docs` the encoder accepts. */
  function EncodableCount<D>(docs: seq<D>, encode: Encoder<D>): nat
    decreases |docs|
  {
    if docs == [] then 0
    else (if encode(docs[0]).Success? then 1 else 0) + EncodableCount(docs[1..], encode)
  }

  /** Once saturated, the inserter sends one batch per encodable document: the first
      carries what was queued, every later one a single document. */
  lemma {:induction false} SaturatedSendsOneBatchPerDocument<D>(
    bb: BufferedBulkInserter, docs: seq<D>, encode: Encoder<D>, server: Server)
    requires Saturated(bb)
    ensures |InsertAll(bb, docs, encode, server).sent| == EncodableCount(docs, encode)
    ensures forall i :: 0 < i < |InsertAll(bb, docs, encode, server).sent| ==>
      |InsertAll(bb, docs, encode, server).sent[i].Documents()| == 1
    ensures |InsertAll(bb, docs, encode, server).sent| > 0 ==>
      InsertAll(bb, docs, encode, server).sent[0].Documents() == bb.bulk.docs
    ensures Saturated(InsertAll(bb, docs, encode, server).inserter)
    ensures |InsertAll(bb, docs, encode, server).inserter.bulk.docs|
      == if EncodableCount(docs, encode) > 0 then 1 else |bb.bulk.docs|
    decreases |docs|
  {
    if docs != [] {
      var first := Insert(bb, docs[0], encode, server);
      SaturatedInsertFlushes(bb, docs[0], encode, server);
      var rest := InsertAll(first.inserter, docs[1..], encode, server);
      SaturatedSendsOneBatchPerDocument(first.inserter, docs[1..], encode, server);
      var t := InsertAll(bb, docs, encode, server);
      assert t.sent == first.sent + rest.sent;
      if encode(docs[0]).Success? {
        assert |first.inserter.bulk.docs| == 1;
        forall i | 0 < i < |t.sent|
          ensures |t.sent[i].Documents()| == 1
        {
          assert t.sent[i] == rest.sent[i - 1];
          if i == 1 {
            assert rest.sent[0].Documents() == first.inserter.bulk.docs;
          }
        }
      } else {
        assert first.inserter == bb;
      }
    }
  }

  /** `Flush` is not idempotent: flushing a second time sends a batch again, an empty one. */
  lemma FlushTwiceSendsEmptyBatch(bb: BufferedBulkInserter, server: Server)
    requires bb.docCount > 0
    ensures |Flush(Flush(bb, server).inserter, server).sent| == 1
    ensures Flush(Flush(bb, server).inserter, server).sent[0].Documents() == []
  {
  }

  // ---------------------------------------------------------------------------
  // Batches from a fresh inserter

  /** Every document of `docs` can be encoded. */
  predicate AllEncode<D>(docs: seq<D>, encode: Encoder<D>) {
    forall i :: 0 <= i < |docs| ==> encode(docs[i]).Success?
  }

  /** The encodings of documents the encoder accepts. */
  function Encodings<D>(docs: seq<D>, encode: Encoder<D>): (raws: seq<Bytes>)
    requires AllEncode(docs, encode)
    ensures |raws| == |docs|
    ensures forall i :: 0 <= i < |docs| ==> raws[i] == encode(docs[i]).value
    decreases |docs|
  {
    if docs == [] then [] else [encode(docs[0]).value] + Encodings(docs[1..], encode)
  }

  /** Inserting one sequence after another is inserting their concatenation. */
  lemma {:induction false} InsertAllAppend<D>(
    bb: BufferedBulkInserter, a: seq<D>, b: seq<D>, encode: Encoder<D>, server: Server)
    ensures
      var ta := InsertAll(bb, a, encode, server);
      var tb := InsertAll(ta.inserter, b, encode, server);
      InsertAll(bb, a + b, encode, server) == Trace(tb.inserter, ta.errs + tb.errs, ta.sent + tb.sent)
    decreases |a|
  {
    if a == [] {
      assert a + b == b;
    } else {
      var ab := a + b;
      assert ab[0] == a[0];
      assert ab[1..] == a[1..] + b;
      var first := Insert(bb, a[0], encode, server);
      var ta' := InsertAll(first.inserter, a[1..], encode, server);
      var tb := InsertAll(ta'.inserter, b, encode, server);
      var rest := InsertAll(first.inserter, a[1..] + b, encode, server);
      InsertAllAppend(first.inserter, a[1..], b, encode, server);
      assert rest == Trace(tb.inserter, ta'.errs + tb.errs, ta'.sent + tb.sent);
      assert InsertAll(bb, ab, encode, server) == Trace(rest.inserter, [first.err] + rest.errs, first.sent + rest.sent);
      assert InsertAll(bb, a, encode, server) == Trace(ta'.inserter, [first.err] + ta'.errs, first.sent + ta'.sent);
      AppendAssociative([first.err], ta'.errs, tb.errs);
      AppendAssociative(first.sent, ta'.sent, tb.sent);
    }
  }

  /** While neither the count nor the size limit is reached, `Insert` only queues. */
  lemma {:induction false} QueuesBelowLimits<D>(
    bb: BufferedBulkInserter, docs: seq<D>, encode: Encoder<D>, server: Server)
    requires AllEncode(docs, encode)
    requires bb.docCount + |docs| <= bb.docLimit
    requires bb.docCount + |docs| <= BulkDocLimit
    requires bb.byteCount + TotalBytes(Encodings(docs, encode)) <= MaxBulkSize
    ensures InsertAll(bb, docs, encode, server).sent == []
    ensures InsertAll(bb, docs, encode, server).inserter.docCount == bb.docCount + |docs|
    ensures InsertAll(bb, docs, encode, server).inserter.byteCount ==
      bb.byteCount + TotalBytes(Encodings(docs, encode))
    ensures InsertAll(bb, docs, encode, server).inserter.bulk.docs == bb.bulk.docs + Encodings(docs, encode)
    ensures InsertAll(bb, docs, encode, server).inserter.docLimit == bb.docLimit
    decreases |docs|
  {
    if docs != [] {
      var raw := encode(docs[0]).value;
      var raws := Encodings(docs, encode);
      var rest := Encodings(docs[1..], encode);
      assert raws == [raw] + rest;
      TotalBytesOfCons(raw, rest);
      assert !NeedsFlush(bb, |raw|);
      QueueOnly(bb, docs[0], encode, server);
      var first := Insert(bb, docs[0], encode, server);
      assert AllEncode(docs[1..], encode) by {
        forall i | 0 <= i < |docs[1..]| ensures encode(docs[1..][i]).Success? {
          assert docs[1..][i] == docs[i + 1];
        }
      }
      var next := first.inserter;
      assert next.bulk.docs == bb.bulk.docs + [raw];
      assert next.byteCount == bb.byteCount + |raw|;
      assert next.docCount == bb.docCount + 1;
      assert next.docLimit == bb.docLimit;
      QueuesBelowLimits(next, docs[1..], encode, server);
      var t := InsertAll(bb, docs, encode, server);
      var tr := InsertAll(next, docs[1..], encode, server);
      assert t.sent == first.sent + tr.sent && t.inserter == tr.inserter;
      assert tr.inserter.bulk.docs == (bb.bulk.docs + [raw]) + rest;
      AppendAssociative(bb.bulk.docs, [raw], rest);
    }
  }

  /** Below the limits, `Insert` queues and counts the document and sends nothing. */
  lemma QueueOnly<D>(bb: BufferedBulkInserter, doc: D, encode: Encoder<D>, server: Server)
    requires encode(doc).Success? && !NeedsFlush(bb, |encode(doc).value|)
    ensures Insert(bb, doc, encode, server).sent == []
    ensures Insert(bb, doc, encode, server).err.None?
    ensures Insert(bb, doc, encode, server).inserter == bb.(
      docCount := bb.docCount + 1,
      byteCount := bb.byteCount + |encode(doc).value|,
      bulk := BulkInserters.Insert(bb.bulk, encode(doc).value))
  {
  }

  /** Regrouping a concatenation.  Stated apart so that the proofs above, whose
      contexts hold many sequence terms, need only instantiate it. */
  lemma AppendAssociative<T>(a: seq<T>, b: seq<T>, c: seq<T>)
    ensures (a + b) + c == a + (b + c)
  {
  }

  lemma {:induction false} TotalBytesOfCons(raw: Bytes, rest: seq<Bytes>)
    ensures TotalBytes([raw] + rest) == |raw| + TotalBytes(rest)
    decreases |rest|
  {
    if rest != [] {
      var front := rest[..|rest| - 1];
      assert ([raw] + rest)[..|rest|] == [raw] + front;
      TotalBytesOfCons(raw, front);
    }
  }

  /** The number of documents a fresh inserter queues before its first flush: the
      configured limit, capped at `BulkDocLimit`. */
  function FirstBatchSize(docLimit: int): int {
    if docLimit < BulkDocLimit then docLimit else BulkDocLimit
  }

  /** From a fresh inserter with a positive document limit, and documents whose first
      `L = min(docLimit, BulkDocLimit)` encodings fit in `MaxBulkSize`, inserting more
      than `L` documents sends a first batch of exactly `L` documents and then one
      single-document batch per further document: `|docs| - L` batches, not one per `L`
      documents.  The final `Flush` then sends one more batch, of the last document. */
  lemma BatchesFromFreshInserter<D>(
    docLimit: int, continueOnError: bool, bulk: BulkInserter,
    docs: seq<D>, encode: Encoder<D>, server: Server)
    requires 1 <= docLimit
    requires |docs| > FirstBatchSize(docLimit)
    requires AllEncode(docs, encode)
    requires TotalBytes(Encodings(docs[..FirstBatchSize(docLimit)], encode)) <= MaxBulkSize
    ensures
      var t := InsertAll(NewBufferedBulkInserter(docLimit, continueOnError, bulk), docs, encode, server);
      var L := FirstBatchSize(docLimit);
      && |t.sent| == |docs| - L
      && t.sent[0].Documents() == Encodings(docs[..L], encode)
      && (forall i :: 0 < i < |t.sent| ==> |t.sent[i].Documents()| == 1)
      && |Flush(t.inserter, server).sent| == 1
      && Flush(t.inserter, server).sent[0].Documents() == [encode(docs[|docs| - 1]).value]
  {
    var L := FirstBatchSize(docLimit);
    var bb := NewBufferedBulkInserter(docLimit, continueOnError, bulk);
    var a := docs[..L];
    var b := docs[L..];
    assert docs == a + b;
    assert AllEncode(a, encode) by {
      forall i | 0 <= i < |a| ensures encode(a[i]).Success? {
        assert a[i] == docs[i];
      }
    }
    assert AllEncode(b, encode) by {
      forall i | 0 <= i < |b| ensures encode(b[i]).Success? {
        assert b[i] == docs[L + i];
      }
    }
    FreshPrefixIsQuiet(docLimit, continueOnError, bulk, a, encode, server);
    SaturatedAfterQuietPrefix(bb, a, b, encode, server);
    assert b[|b| - 1] == docs[|docs| - 1];
  }

  /** A fresh inserter queues its first `L` documents without sending anything, and is
      then saturated. */
  lemma FreshPrefixIsQuiet<D>(
    docLimit: int, continueOnError: bool, bulk: BulkInserter,
    a: seq<D>, encode: Encoder<D>, server: Server)
    requires 1 <= docLimit && |a| == FirstBatchSize(docLimit)
    requires AllEncode(a, encode)
    requires TotalBytes(Encodings(a, encode)) <= MaxBulkSize
    ensures
      var ta := InsertAll(NewBufferedBulkInserter(docLimit, continueOnError, bulk), a, encode, server);
      && ta.sent == []
      && ta.inserter.bulk.docs == Encodings(a, encode)
      && Saturated(ta.inserter)
  {
    var bb := NewBufferedBulkInserter(docLimit, continueOnError, bulk);
    QueuesBelowLimits(bb, a, encode, server);
    assert [] + Encodings(a, encode) == Encodings(a, encode);
  }

  /** A quiet prefix that leaves the inserter saturated, followed by encodable documents:
      one batch per further document, the first being the prefix's queue and the others
      single documents, with the last document left queued. */
  lemma SaturatedAfterQuietPrefix<D>(
    bb: BufferedBulkInserter, a: seq<D>, b: seq<D>, encode: Encoder<D>, server: Server)
    requires InsertAll(bb, a, encode, server).sent == []
    requires Saturated(InsertAll(bb, a, encode, server).inserter)
    requires b != [] && AllEncode(b, encode)
    ensures
      var t := InsertAll(bb, a + b, encode, server);
      && |t.sent| == |b|
      && t.sent[0].Documents() == InsertAll(bb, a, encode, server).inserter.bulk.docs
      && (forall i :: 0 < i < |t.sent| ==> |t.sent[i].Documents()| == 1)
      && |Flush(t.inserter, server).sent| == 1
      && Flush(t.inserter, server).sent[0].Documents() == [encode(b[|b| - 1]).value]
  {
    var ta := InsertAll(bb, a, encode, server);
    InsertAllAppend(bb, a, b, encode, server);
    AllEncodeCount(b, encode);
    SaturatedSendsOneBatchPerDocument(ta.inserter, b, encode, server);
    LastQueued(ta.inserter, b, encode, server);
  }

  /** From a saturated inserter, after inserting encodable documents, the last one is
      what is queued. */
  lemma {:induction false} LastQueued<D>(
    bb: BufferedBulkInserter, docs: seq<D>, encode: Encoder<D>, server: Server)
    requires Saturated(bb)
    requires docs != [] && AllEncode(docs, encode)
    ensures InsertAll(bb, docs, encode, server).inserter.bulk.docs == [encode(docs[|docs| - 1]).value]
    ensures Saturated(InsertAll(bb, docs, encode, server).inserter)
    decreases |docs|
  {
    var first := Insert(bb, docs[0], encode, server);
    SaturatedInsertFlushes(bb, docs[0], encode, server);
    if |docs| > 1 {
      assert AllEncode(docs[1..], encode) by {
        forall i | 0 <= i < |docs[1..]| ensures encode(docs[1..][i]).Success? {
          assert docs[1..][i] == docs[i + 1];
        }
      }
      LastQueued(first.inserter, docs[1..], encode, server);
      assert docs[1..][|docs[1..]| - 1] == docs[|docs| - 1];
    } else {
      assert docs[1..] == [];
    }
  }

  lemma {:induction false} AllEncodeCount<D>(docs: seq<D>, encode: Encoder<D>)
    requires AllEncode(docs, encode)
    ensures EncodableCount(docs, encode) == |docs|
    decreases |docs|
  {
    if docs != [] {
      assert AllEncode(docs[1..], encode) by {
        forall i | 0 <= i < |docs[1..]| ensures encode(docs[1..][i]).Success? {
          assert docs[1..][i] == docs[i + 1];
        }
      }
      AllEncodeCount(docs[1..], encode);
    }
  }
}

=== FILE: bulk_inserters.dfy ===
/** The two implementations of the `BulkInserter` interface of common/db/buffered_bulk.go:
    `WriteCommandBulk`, which sends one `insert` command with every queued document, and
    `LegacyBulkInserter`, which queues the documents on a driver bulk object.  The database
    round trip and the driver's bulk execution are abstract: they are the `Server` a caller
    passes in. */
module BulkInserters {
  import opened Wrappers

  /** A raw byte string, as the BSON encoder produces.  The interface accepts any value,
      but its one caller, `BufferedBulkInserter`, only ever queues raw BSON. */
  type Bytes = seq<bv8>

  /** One entry of the `writeErrors` array of a write command's reply. */
  type WriteErrorDoc = map<string, string>

  /** The write-concern document, passed through to the server uninterpreted. */
  type WriteConcern = map<string, string>

  /** The errors of the bulk-write layer. */
  datatype Error =
    | BsonEncoding(cause: string)
      /** an error returned by `Database.Run` (connection, command failure) */
    | Transport(cause: string)
      /** `ErrWriteCommandBulk`: the per-document errors a write command reported */
    | WriteCommandFailed(writeErrors: seq<WriteErrorDoc>, rootError: Option<Error>)
      /** an error returned by the driver's `Bulk.Run` */
    | Driver(cause: string)

  /** The `insert` command document a `WriteCommandBulk` sends. */
  datatype InsertCommand = InsertCommand(
    insert: string,
    ordered: bool,
    documents: seq<Bytes>,
    writeConcern: WriteConcern)

  /** What `Database.Run` yields for a command: an error, or the decoded reply. */
  datatype Reply = RunFailed(err: Error) | Replied(writeErrors: seq<WriteErrorDoc>)

  /** One batch handed to the server, in either of the two wire forms. */
  datatype Request =
    | CommandRequest(command: InsertCommand)
    | LegacyRequest(collection: string, ordered: bool, ops: seq<Bytes>)
  {
    function Documents(): seq<Bytes> {
      match this
      case CommandRequest(c) => c.documents
      case LegacyRequest(_, _, ops) => ops
    }
  }

  /** The server side, abstract: the answer to a write command, and the outcome of
      executing a driver bulk. */
  datatype Server = Server(
    database: InsertCommand -> Reply,
    legacyRun: Request -> Option<Error>)

  /** A bulk inserter.  `docs` are the queued documents (for the legacy variant: the
      operations queued on the driver bulk `b`); `unordered` is the inserter's own flag;
      `bulkUnordered` is the ordering mode of the legacy variant's current driver bulk. */
  datatype BulkInserter =
    | WriteCommandBulk(collection: string, docs: seq<Bytes>, unordered: bool, writeConcern: WriteConcern)
    | LegacyBulkInserter(collection: string, docs: seq<Bytes>, unordered: bool, bulkUnordered: bool)

  /** The mode the server will execute the next batch in. */
  predicate RunsUnordered(b: BulkInserter) {
    match b
    case WriteCommandBulk(_, _, u, _) => u
    case LegacyBulkInserter(_, _, _, bu) => bu
  }

  /** The legacy inserter's flag and its driver bulk's mode agree. */
  predicate Consistent(b: BulkInserter) {
    b.LegacyBulkInserter? ==> b.bulkUnordered == b.unordered
  }

  /** `NewWriteCommandBulk`: an empty command bulk whose flag is the negated `ordered`. */
  function NewWriteCommandBulk(collection: string, ordered: bool, writeConcern: WriteConcern): (b: BulkInserter)
    ensures b.WriteCommandBulk? && b.docs == [] && b.collection == collection
    ensures b.writeConcern == writeConcern
    ensures RunsUnordered(b) == !ordered && Consistent(b)
  {
    WriteCommandBulk(collection, [], !ordered, writeConcern)
  }

  /** `NewLegacyBulk`: the flag records `!ordered`, but the fresh driver bulk is ordered
      until the next `Reset` or `Unordered`. */
  function NewLegacyBulk(collection: string, ordered: bool): (b: BulkInserter)
    ensures b.LegacyBulkInserter? && b.docs == [] && b.collection == collection
    ensures b.unordered == !ordered && !RunsUnordered(b)
    ensures Consistent(b) <==> ordered
  {
    LegacyBulkInserter(collection, [], !ordered, false)
  }

  /** `Reset`: drops the queued documents; the legacy variant takes a fresh driver bulk
      and re-applies `Unordered` to it whenever its flag is set. */
  function Reset(b: BulkInserter): (r: BulkInserter)
    ensures r.docs == [] && r.collection == b.collection && r.unordered == b.unordered
    ensures r.WriteCommandBulk? == b.WriteCommandBulk?
    ensures b.WriteCommandBulk? ==> r.writeConcern == b.writeConcern
    ensures Consistent(r) && RunsUnordered(r) == b.unordered
  {
    match b
    case WriteCommandBulk(c, _, u, wc) => WriteCommandBulk(c, [], u, wc)
    case LegacyBulkInserter(c, _, u, _) => LegacyBulkInserter(c, [], u, u)
  }

  /** `Unordered`: sets the flag (and, for the legacy variant, the driver bulk's mode). */
  function SetUnordered(b: BulkInserter): (r: BulkInserter)
    ensures r.docs == b.docs && r.collection == b.collection
    ensures r.WriteCommandBulk? == b.WriteCommandBulk?
    ensures b.WriteCommandBulk? ==> r.writeConcern == b.writeConcern
    ensures r.unordered && RunsUnordered(r) && Consistent(r)
  {
    match b
    case WriteCommandBulk(c, d, _, wc) => WriteCommandBulk(c, d, true, wc)
    case LegacyBulkInserter(c, d, _, _) => LegacyBulkInserter(c, d, true, true)
  }

  /** `Insert`: appends one document after those already queued. */
  function Insert(b: BulkInserter, d: Bytes): (r: BulkInserter)
    ensures |r.docs| == |b.docs| + 1 && r.docs[..|b.docs|] == b.docs && r.docs[|b.docs|] == d
    ensures r.collection == b.collection && r.unordered == b.unordered
    ensures r.WriteCommandBulk? == b.WriteCommandBulk?
    ensures RunsUnordered(r) == RunsUnordered(b) && (Consistent(b) ==> Consistent(r))
    ensures b.WriteCommandBulk? ==> r.writeConcern == b.writeConcern
  {
    b.(docs := b.docs + [d])
  }

  /** The batch `Run` hands to the server: every queued document, in order, with the
      `ordered` field the negation of the mode. */
  function RequestOf(b: BulkInserter): (req: Request)
    ensures req.Documents() == b.docs
    ensures req.CommandRequest? <==> b.WriteCommandBulk?
    ensures req.CommandRequest? ==>
      && req.command.ordered == !b.unordered
      && req.command.insert == b.collection
      && req.command.writeConcern == b.writeConcern
    ensures req.LegacyRequest? ==> req.ordered == !RunsUnordered(b) && req.collection == b.collection
  {
    match b
    case WriteCommandBulk(c, d, u, wc) => CommandRequest(InsertCommand(c, !u, d, wc))
    case LegacyBulkInserter(c, d, _, bu) => LegacyRequest(c, !bu, d)
  }

  /** How `WriteCommandBulk.Run` turns the command's reply into its result: an error from
      `Database.Run` comes back unchanged, a reply with write errors becomes an
      `ErrWriteCommandBulk` carrying them (with no root error), and a clean reply is nil. */
  function ReplyError(reply: Reply): (r: Option<Error>)
    ensures reply.RunFailed? ==> r == Some(reply.err)
    ensures reply.Replied? ==> (r.None? <==> |reply.writeErrors| == 0)
    ensures reply.Replied? && r.Some? ==>
      && r.value.WriteCommandFailed?
      && r.value.writeErrors == reply.writeErrors
      && r.value.rootError.None?
  {
    match reply
    case RunFailed(err) => Some(err)
    case Replied(errs) => if |errs| > 0 then Some(WriteCommandFailed(errs, None)) else None
  }

  /** `Run`: sends the queued batch and reports the outcome.  It does not change the
      inserter. */
  function Run(b: BulkInserter, server: Server): (r: Option<Error>)
    ensures b.WriteCommandBulk? ==>
      r == ReplyError(server.database(InsertCommand(b.collection, !b.unordered, b.docs, b.writeConcern)))
    ensures b.LegacyBulkInserter? ==>
      r == server.legacyRun(LegacyRequest(b.collection, !b.bulkUnordered, b.docs))
  {
    match b
    case WriteCommandBulk(_, _, _, _) => ReplyError(server.database(RequestOf(b).command))
    case LegacyBulkInserter(_, _, _, _) => server.legacyRun(RequestOf(b))
  }

  /** A write command reports success exactly when the server answered without write
      errors. */
  lemma WriteCommandRunSucceeds(b: BulkInserter, server: Server)
    requires b.WriteCommandBulk?
    ensures Run(b, server).None? <==>
      server.database(InsertCommand(b.collection, !b.unordered, b.docs, b.writeConcern)) == Replied([])
  {
  }

  /** The calls a caller can make on a bulk inserter between runs. */
  datatype Op = Queue(doc: Bytes) | ResetOp | MakeUnordered

  /** The inserter after the calls `ops`, in order. */
  function ApplyOps(b: BulkInserter, ops: seq<Op>): BulkInserter
    decreases |ops|
  {
    if ops == [] then b
    else
      var next := match ops[0]
        case Queue(d) => Insert(b, d)
        case ResetOp => Reset(b)
        case MakeUnordered => SetUnordered(b);
      ApplyOps(next, ops[1..])
  }

  /** Once an inserter is set unordered it stays unordered, and runs unordered, through
      any sequence of inserts, resets and further `Unordered` calls: the legacy variant
      re-applies the flag to every fresh driver bulk. */
  lemma LegacyFlagPersists(b: BulkInserter, ops: seq<Op>)
    ensures ApplyOps(SetUnordered(b), ops).unordered
    ensures RunsUnordered(ApplyOps(SetUnordered(b), ops))
    ensures ApplyOps(SetUnordered(b), ops).LegacyBulkInserter? == b.LegacyBulkInserter?
  {
    StaysUnordered(SetUnordered(b), ops);
  }

  lemma {:induction false} StaysUnordered(b: BulkInserter, ops: seq<Op>)
    requires b.unordered && RunsUnordered(b)
    ensures ApplyOps(b, ops).unordered && RunsUnordered(ApplyOps(b, ops))
    ensures ApplyOps(b, ops).LegacyBulkInserter? == b.LegacyBulkInserter?
    decreases |ops|
  {
    if ops != [] {
      var next := match ops[0]
        case Queue(d) => Insert(b, d)
        case ResetOp => Reset(b)
        case MakeUnordered => SetUnordered(b);
      StaysUnordered(next, ops[1..]);
    }
  }

  /** A legacy inserter built unordered is, until its first `Reset`, backed by an
      ordered driver bulk; one `Reset` fixes it. */
  lemma LegacyConstructorNeedsReset(collection: string)
    ensures !RunsUnordered(NewLegacyBulk(collection, false))
    ensures RunsUnordered(Reset(NewLegacyBulk(collection, false)))
  {
  }
}

=== FILE: import_options.dfy ===
/** `MongoImport.ValidateSettings` of mongoimport/mongoimport.go: checks the options
    of one import run and fills in their defaults.  The database-name, collection-name
    and upsert-field validators and `filepath.Base` are not part of this model; they are
    the `Collaborators` a caller passes in. */
module ImportOptions {
  import opened Wrappers
  import Text

  // Input format types
  const CSV := "csv"
  const TSV := "tsv"
  const JSON := "json"

  const DefaultDB := "test"
  const DefaultBulkBufferSize := 10000
  const IdField := "_id"

  datatype ToolOptions = ToolOptions(
    db: string,
    collection: string,
    maxProcs: int,
    numDecodingWorkers: int,
    bulkBufferSize: int)

  /** `fields` and `fieldFile` may be nil in the source: `None` is an absent option. */
  datatype InputOptions = InputOptions(
    inputType: string,
    headerLine: bool,
    fields: Option<string>,
    fieldFile: Option<string>,
    file: string)

  datatype IngestOptions = IngestOptions(
    upsert: bool,
    upsertFields: string,
    maintainInsertionOrder: bool,
    numInsertionWorkers: int,
    ignoreBlanks: bool,
    stopOnError: bool)

  /** The options of one run, and the upsert key fields derived from them. */
  datatype MongoImport = MongoImport(
    tool: ToolOptions,
    input: InputOptions,
    ingest: IngestOptions,
    upsertKeys: Option<seq<string>>)

  /** Helpers from outside this file: the name validators, the upsert-field validator
      and `filepath.Base`. */
  datatype Collaborators = Collaborators(
    validDBName: string -> bool,
    validCollectionName: string -> bool,
    validFields: seq<string> -> bool,
    baseName: string -> string)

  /** One constructor per error `ValidateSettings` can return. */
  datatype ValidationError =
    | InvalidDatabaseName(db: string)
    | UnknownType(inputType: string)
    | MissingFieldSource
    | EmptyFieldFile
    | FieldsWithFieldFile
    | FieldsWithHeaderLine
    | FieldFileWithHeaderLine
    | HeaderLineWithJson
    | FieldsWithJson
    | FieldFileWithJson
    | IgnoreBlanksWithJson
    | InvalidUpsertFields(fields: seq<string>)
    | TooManyPositionalArgs
    | FileWithPositionalArg
    | InvalidCollectionName(collection: string)

  // ---------------------------------------------------------------------------
  // The steps of ValidateSettings, in the order the source takes them

  /** An empty database name becomes "test"; the result must be a valid name. */
  function CheckDatabase(imp: MongoImport, h: Collaborators): (r: Result<MongoImport, ValidationError>)
    ensures r.Success? <==> h.validDBName(DatabaseName(imp.tool.db))
    ensures r.Success? ==> r.value == imp.(tool := imp.tool.(db := DatabaseName(imp.tool.db)))
    ensures r.Failure? ==> r.error == InvalidDatabaseName(DatabaseName(imp.tool.db))
    ensures imp.tool.db == "" ==>
      && (r.Success? <==> h.validDBName(DefaultDB))
      && (r.Success? ==> r.value.tool.db == DefaultDB)
    ensures imp.tool.db != "" && r.Success? ==> r.value.tool.db == imp.tool.db
  {
    var db := if imp.tool.db == "" then DefaultDB else imp.tool.db;
    if !h.validDBName(db) then Failure(InvalidDatabaseName(db))
    else Success(imp.(tool := imp.tool.(db := db)))
  }

  /** The database name after defaulting. */
  function DatabaseName(db: string): (r: string)
    ensures r != ""
    ensures db != "" ==> r == db
    ensures db == "" ==> r == DefaultDB
  {
    if db == "" then DefaultDB else db
  }

  /** The input type is lower-cased, an empty one becomes "json", and anything but
      "csv", "tsv" and "json" is refused. */
  function CheckType(imp: MongoImport): (r: Result<MongoImport, ValidationError>)
    ensures r.Success? <==> Text.ToLower(imp.input.inputType) in {"", CSV, TSV, JSON}
    ensures r.Success? ==> r.value == imp.(input := imp.input.(inputType := InputType(imp.input.inputType)))
    ensures r.Failure? ==> r.error == UnknownType(Text.ToLower(imp.input.inputType))
    ensures r.Success? ==> r.value.input.inputType in {CSV, TSV, JSON}
    ensures r.Success? && imp.input.inputType == "" ==> r.value.input.inputType == JSON
    ensures r.Success? && imp.input.inputType != "" ==>
      r.value.input.inputType == Text.ToLower(imp.input.inputType)
  {
    var t := Text.ToLower(imp.input.inputType);
    if t == "" then
      Success(imp.(input := imp.input.(inputType := JSON)))
    else if !(t == TSV || t == JSON || t == CSV) then
      Failure(UnknownType(t))
    else
      Success(imp.(input := imp.input.(inputType := t)))
  }

  /** The input type after normalisation: lower-cased, "json" when empty. */
  function InputType(t: string): (r: string)
    ensures r != ""
    ensures forall i :: 0 <= i < |r| ==> !Text.IsAsciiUpper(r[i])
    ensures Text.ToLower(t) != "" ==> r == Text.ToLower(t)
    ensures t == "" ==> r == JSON
  {
    var lower := Text.ToLower(t);
    if lower == "" then JSON else lower
  }

  /** CSV and TSV need their field names from exactly one of `--fields`, `--fieldFile`
      (not empty) or `--headerline`; JSON takes none of them, nor `--ignoreBlanks`.
      The first rule broken, in source order, is reported. */
  function CheckFieldSources(imp: MongoImport): (r: Result<MongoImport, ValidationError>)
    ensures r.Success? ==> r.value == imp
    ensures r.Success? <==> FieldSourcesAllowed(imp.input, imp.ingest.ignoreBlanks)
    ensures r.Failure? && (imp.input.inputType == CSV || imp.input.inputType == TSV) ==>
      r.error in {MissingFieldSource, EmptyFieldFile, FieldsWithFieldFile,
                  FieldsWithHeaderLine, FieldFileWithHeaderLine}
    ensures r.Failure? && imp.input.inputType != CSV && imp.input.inputType != TSV ==>
      r.error in {HeaderLineWithJson, FieldsWithJson, FieldFileWithJson, IgnoreBlanksWithJson}
    ensures var i := imp.input;
      r == Failure(MissingFieldSource)
      <==> i.inputType in {CSV, TSV} && !i.headerLine && i.fields.None? && i.fieldFile.None?
    ensures var i := imp.input;
      r == Failure(EmptyFieldFile)
      <==> i.inputType in {CSV, TSV} && !i.headerLine && i.fieldFile == Some("")
    ensures var i := imp.input;
      r == Failure(FieldsWithFieldFile)
      <==> i.inputType in {CSV, TSV} && !i.headerLine && i.fields.Some? && i.fieldFile.Some?
           && i.fieldFile != Some("")
    ensures var i := imp.input;
      r == Failure(FieldsWithHeaderLine)
      <==> i.inputType in {CSV, TSV} && i.headerLine && i.fields.Some?
    ensures var i := imp.input;
      r == Failure(FieldFileWithHeaderLine)
      <==> i.inputType in {CSV, TSV} && i.headerLine && i.fields.None? && i.fieldFile.Some?
    ensures var i := imp.input;
      r == Failure(HeaderLineWithJson)
      <==> i.inputType !in {CSV, TSV} && i.headerLine
    ensures var i := imp.input;
      r == Failure(FieldsWithJson)
      <==> i.inputType !in {CSV, TSV} && !i.headerLine && i.fields.Some?
    ensures var i := imp.input;
      r == Failure(FieldFileWithJson)
      <==> i.inputType !in {CSV, TSV} && !i.headerLine && i.fields.None? && i.fieldFile.Some?
    ensures var i := imp.input;
      r == Failure(IgnoreBlanksWithJson)
      <==> i.inputType !in {CSV, TSV} && !i.headerLine && i.fields.None? && i.fieldFile.None?
           && imp.ingest.ignoreBlanks
  {
    var input := imp.input;
    if input.inputType == CSV || input.inputType == TSV then
      if !input.headerLine then
        if input.fields.None? && input.fieldFile.None? then Failure(MissingFieldSource)
        else if input.fieldFile == Some("") then Failure(EmptyFieldFile)
        else if input.fields.Some? && input.fieldFile.Some? then Failure(FieldsWithFieldFile)
        else Success(imp)
      else
        if input.fields.Some? then Failure(FieldsWithHeaderLine)
        else if input.fieldFile.Some? then Failure(FieldFileWithHeaderLine)
        else Success(imp)
    else
      if input.headerLine then Failure(HeaderLineWithJson)
      else if input.fields.Some? then Failure(FieldsWithJson)
      else if input.fieldFile.Some? then Failure(FieldFileWithJson)
      else if imp.ingest.ignoreBlanks then Failure(IgnoreBlanksWithJson)
      else Success(imp)
  }

  /** The field-source rules, stated without regard to which error is reported: a CSV
      or TSV file takes its field names from exactly one source, a field file named by a
      non-empty path; JSON takes none, and keeps its blanks. */
  predicate FieldSourcesAllowed(input: InputOptions, ignoreBlanks: bool) {
    if input.inputType in {CSV, TSV} then
      var sources := (if input.headerLine then 1 else 0)
        + (if input.fields.Some? then 1 else 0)
        + (if input.fieldFile.Some? then 1 else 0);
      sources == 1 && input.fieldFile != Some("")
    else
      !input.headerLine && input.fields.None? && input.fieldFile.None? && !ignoreBlanks
  }

  /** A non-empty `--upsertFields` turns upsert on and its comma-separated parts become
      the key fields, which must be valid; upsert without fields keys on "_id".  Upsert
      forces insertion order to be kept. */
  function ApplyUpsert(imp: MongoImport, h: Collaborators): (r: Result<MongoImport, ValidationError>)
    ensures r.Failure? <==> imp.ingest.upsertFields != "" && !h.validFields(Text.Split(imp.ingest.upsertFields, ','))
    ensures r.Failure? ==> r.error == InvalidUpsertFields(Text.Split(imp.ingest.upsertFields, ','))
    ensures r.Success? ==>
      && r.value.ingest.upsert == (imp.ingest.upsert || imp.ingest.upsertFields != "")
      && r.value.ingest.maintainInsertionOrder == (imp.ingest.maintainInsertionOrder || r.value.ingest.upsert)
      && (imp.ingest.upsertFields != "" ==>
            r.value.upsertKeys == Some(Text.Split(imp.ingest.upsertFields, ',')))
      && (imp.ingest.upsertFields == "" && imp.ingest.upsert ==> r.value.upsertKeys == Some([IdField]))
      && (!r.value.ingest.upsert ==> r.value.upsertKeys == imp.upsertKeys)
      && r.value.tool == imp.tool && r.value.input == imp.input
      && r.value.ingest.(upsert := imp.ingest.upsert, maintainInsertionOrder := imp.ingest.maintainInsertionOrder)
         == imp.ingest
  {
    var withKeys :-
      if imp.ingest.upsertFields != "" then
        var keys := Text.Split(imp.ingest.upsertFields, ',');
        if !h.validFields(keys) then Failure(InvalidUpsertFields(keys))
        else Success(imp.(ingest := imp.ingest.(upsert := true), upsertKeys := Some(keys)))
      else if imp.ingest.upsert then
        Success(imp.(upsertKeys := Some([IdField])))
      else
        Success(imp);
    if withKeys.ingest.upsert then
      Success(withKeys.(ingest := withKeys.ingest.(maintainInsertionOrder := true)))
    else
      Success(withKeys)
  }

  /** Worker-count and batch-size defaults: decoding workers default to the processor
      count, insertion workers to one (and exactly one when order is kept), and a
      non-positive batch size becomes 10000. */
  function ApplyWorkerDefaults(imp: MongoImport): (r: MongoImport)
    ensures r.ingest.numInsertionWorkers >= 1
    ensures r.ingest.maintainInsertionOrder ==> r.ingest.numInsertionWorkers == 1
    ensures !r.ingest.maintainInsertionOrder && imp.ingest.numInsertionWorkers > 0 ==>
      r.ingest.numInsertionWorkers == imp.ingest.numInsertionWorkers
    ensures imp.ingest.numInsertionWorkers <= 0 ==> r.ingest.numInsertionWorkers == 1
    ensures r.tool.bulkBufferSize > 0
    ensures imp.tool.bulkBufferSize > 0 ==> r.tool.bulkBufferSize == imp.tool.bulkBufferSize
    ensures imp.tool.bulkBufferSize <= 0 ==> r.tool.bulkBufferSize == DefaultBulkBufferSize
    ensures r.tool.numDecodingWorkers ==
      (if imp.tool.numDecodingWorkers <= 0 then imp.tool.maxProcs else imp.tool.numDecodingWorkers)
    ensures r.input == imp.input && r.upsertKeys == imp.upsertKeys
    ensures r.ingest.(numInsertionWorkers := imp.ingest.numInsertionWorkers) == imp.ingest
    ensures r.tool.(numDecodingWorkers := imp.tool.numDecodingWorkers, bulkBufferSize := imp.tool.bulkBufferSize)
      == imp.tool
  {
    var decoding := if imp.tool.numDecodingWorkers <= 0 then imp.tool.maxProcs else imp.tool.numDecodingWorkers;
    var insertion := if imp.ingest.numInsertionWorkers <= 0 then 1 else imp.ingest.numInsertionWorkers;
    var insertion' := if imp.ingest.maintainInsertionOrder then 1 else insertion;
    var batch := if imp.tool.bulkBufferSize <= 0 then DefaultBulkBufferSize else imp.tool.bulkBufferSize;
    imp.(tool := imp.tool.(numDecodingWorkers := decoding, bulkBufferSize := batch),
         ingest := imp.ingest.(numInsertionWorkers := insertion'))
  }

  /** At most one positional argument, and not together with `--file`; a lone positional
      argument names the input file. */
  function ApplyPositionalArgs(imp: MongoImport, args: seq<string>): (r: Result<MongoImport, ValidationError>)
    ensures r.Success? <==> |args| <= 1 && (imp.input.file == "" || |args| == 0)
    ensures r.Failure? ==> r.error == (if |args| > 1 then TooManyPositionalArgs else FileWithPositionalArg)
    ensures r.Success? ==> r.value == imp.(input := imp.input.(file := InputFile(imp.input.file, args)))
  {
    if |args| > 1 then
      Failure(TooManyPositionalArgs)
    else if imp.input.file != "" && |args| != 0 then
      Failure(FileWithPositionalArg)
    else if imp.input.file == "" && |args| != 0 then
      Success(imp.(input := imp.input.(file := args[0])))
    else
      Success(imp)
  }

  /** The input file after the positional argument is taken into account. */
  function InputFile(file: string, args: seq<string>): (r: string)
    ensures file != "" ==> r == file
    ensures file == "" && |args| == 0 ==> r == ""
    ensures file == "" && |args| > 0 ==> r == args[0]
  {
    if file == "" && |args| > 0 then args[0] else file
  }

  /** The collection named after a file: its base name with everything from the last
      '.' on removed, or the whole base name when it has no '.'. */
  function CollectionFromFile(file: string, h: Collaborators): (name: string)
    ensures var base := h.baseName(file);
      if '.' in base then
        exists ext :: base == name + ['.'] + ext && '.' !in ext
      else
        name == base
  {
    var base := h.baseName(file);
    var lastDot := Text.LastIndexOf(base, '.');
    if lastDot != -1 then
      assert base == base[..lastDot] + ['.'] + base[lastDot + 1..];
      base[..lastDot]
    else
      base
  }

  /** An empty collection name is taken from the input file; the result must be a
      valid name. */
  function CheckCollection(imp: MongoImport, h: Collaborators): (r: Result<MongoImport, ValidationError>)
    ensures var name := CollectionName(imp, h);
      && (r.Success? <==> h.validCollectionName(name))
      && (r.Success? ==> r.value == imp.(tool := imp.tool.(collection := name)))
      && (r.Failure? ==> r.error == InvalidCollectionName(name))
    ensures r.Success? && imp.tool.collection == "" ==>
      r.value.tool.collection == CollectionFromFile(imp.input.file, h)
    ensures r.Success? && imp.tool.collection != "" ==> r.value.tool.collection == imp.tool.collection
  {
    var name := if imp.tool.collection == "" then CollectionFromFile(imp.input.file, h) else imp.tool.collection;
    if !h.validCollectionName(name) then Failure(InvalidCollectionName(name))
    else Success(imp.(tool := imp.tool.(collection := name)))
  }

  /** The collection name after defaulting. */
  function CollectionName(imp: MongoImport, h: Collaborators): (name: string)
    ensures imp.tool.collection != "" ==> name == imp.tool.collection
    ensures imp.tool.collection == "" ==> name == CollectionFromFile(imp.input.file, h)
  {
    if imp.tool.collection == "" then CollectionFromFile(imp.input.file, h) else imp.tool.collection
  }

  // ---------------------------------------------------------------------------
  // ValidateSettings

  /** `ValidateSettings`: the steps above in source order; the first failure is returned. */
  function ValidateSettings(imp: MongoImport, args: seq<string>, h: Collaborators): (r: Result<MongoImport, ValidationError>)
    ensures r.Success? <==> Acceptable(imp, args, h)
    ensures r.Success? ==> Validated(r.value)
    ensures r.Success? ==>
      && r.value.tool.db == DatabaseName(imp.tool.db)
      && r.value.input.inputType == InputType(imp.input.inputType)
      && r.value.input.file == InputFile(imp.input.file, args)
      && r.value.ingest.upsert == (imp.ingest.upsert || imp.ingest.upsertFields != "")
      && r.value.ingest.stopOnError == imp.ingest.stopOnError
      && r.value.ingest.ignoreBlanks == imp.ingest.ignoreBlanks
    ensures r.Success? ==>
      && (imp.tool.db == "" ==> r.value.tool.db == DefaultDB)
      && (imp.input.inputType == "" ==> r.value.input.inputType == JSON)
      && (imp.input.inputType != "" ==> r.value.input.inputType == Text.ToLower(imp.input.inputType))
      && r.value.tool.collection == TargetCollection(imp, args, h)
    ensures r.Success? ==>
      var upsert := imp.ingest.upsert || imp.ingest.upsertFields != "";
      && r.value.tool.bulkBufferSize
         == (if imp.tool.bulkBufferSize <= 0 then DefaultBulkBufferSize else imp.tool.bulkBufferSize)
      && r.value.upsertKeys == (
           if imp.ingest.upsertFields != "" then Some(Text.Split(imp.ingest.upsertFields, ','))
           else if imp.ingest.upsert then Some([IdField])
           else imp.upsertKeys)
      && r.value.ingest.maintainInsertionOrder == (imp.ingest.maintainInsertionOrder || upsert)
      && r.value.ingest.numInsertionWorkers == (
           if imp.ingest.maintainInsertionOrder || upsert || imp.ingest.numInsertionWorkers <= 0 then 1
           else imp.ingest.numInsertionWorkers)
  {
    var a :- CheckDatabase(imp, h);
    var b :- CheckType(a);
    var c :- CheckFieldSources(b);
    var d :- ApplyUpsert(c, h);
    var e := ApplyWorkerDefaults(d);
    var f :- ApplyPositionalArgs(e, args);
    CheckCollection(f, h)
  }

  /** Validation defaults the decoding workers to the processor count and leaves the
      options it does not check as they were. */
  lemma ValidateSettingsKeepsOthers(imp: MongoImport, args: seq<string>, h: Collaborators)
    ensures var r := ValidateSettings(imp, args, h);
      r.Success? ==>
      && r.value.tool.numDecodingWorkers
         == (if imp.tool.numDecodingWorkers <= 0 then imp.tool.maxProcs else imp.tool.numDecodingWorkers)
      && r.value.tool.maxProcs == imp.tool.maxProcs
      && r.value.input.(inputType := imp.input.inputType, file := imp.input.file) == imp.input
      && r.value.ingest.(upsert := imp.ingest.upsert,
                         maintainInsertionOrder := imp.ingest.maintainInsertionOrder,
                         numInsertionWorkers := imp.ingest.numInsertionWorkers) == imp.ingest
  {
  }

  /** The error of a rejected option set is that of the first rule broken, in the order
      the source checks them. */
  lemma ValidateSettingsFirstError(imp: MongoImport, args: seq<string>, h: Collaborators)
    ensures !DatabaseAccepted(imp, h) ==>
      ValidateSettings(imp, args, h) == Failure(InvalidDatabaseName(DatabaseName(imp.tool.db)))
    ensures DatabaseAccepted(imp, h) && !TypeAccepted(imp) ==>
      ValidateSettings(imp, args, h) == Failure(UnknownType(Text.ToLower(imp.input.inputType)))
    ensures (DatabaseAccepted(imp, h) && TypeAccepted(imp)
             && !FieldSourcesAllowed(NormalisedInput(imp), imp.ingest.ignoreBlanks)) ==>
      ValidateSettings(imp, args, h) == Failure(CheckFieldSources(imp.(input := NormalisedInput(imp))).error)
    ensures (DatabaseAccepted(imp, h) && TypeAccepted(imp)
             && FieldSourcesAllowed(NormalisedInput(imp), imp.ingest.ignoreBlanks)
             && !UpsertFieldsAccepted(imp, h)) ==>
      ValidateSettings(imp, args, h) == Failure(InvalidUpsertFields(Text.Split(imp.ingest.upsertFields, ',')))
    ensures (DatabaseAccepted(imp, h) && TypeAccepted(imp)
             && FieldSourcesAllowed(NormalisedInput(imp), imp.ingest.ignoreBlanks)
             && UpsertFieldsAccepted(imp, h) && !ArgsAccepted(imp, args)) ==>
      ValidateSettings(imp, args, h) == Failure(if |args| > 1 then TooManyPositionalArgs else FileWithPositionalArg)
    ensures (DatabaseAccepted(imp, h) && TypeAccepted(imp)
             && FieldSourcesAllowed(NormalisedInput(imp), imp.ingest.ignoreBlanks)
             && UpsertFieldsAccepted(imp, h) && ArgsAccepted(imp, args)
             && !CollectionAccepted(imp, args, h)) ==>
      ValidateSettings(imp, args, h) == Failure(InvalidCollectionName(TargetCollection(imp, args, h)))
  {
  }

  /** What every validated option set satisfies. */
  predicate Validated(imp: MongoImport) {
    && imp.tool.db != ""
    && imp.input.inputType in {CSV, TSV, JSON}
    && FieldSourcesAllowed(imp.input, imp.ingest.ignoreBlanks)
    && imp.ingest.numInsertionWorkers >= 1
    && (imp.ingest.upsert ==> imp.ingest.maintainInsertionOrder && imp.upsertKeys.Some? && |imp.upsertKeys.value| >= 1)
    && (imp.ingest.maintainInsertionOrder ==> imp.ingest.numInsertionWorkers == 1)
    && imp.tool.bulkBufferSize > 0
  }

  /** The options `ValidateSettings` accepts, stated rule by rule rather than check by
      check; the rules are listed in the order the source checks them. */
  predicate Acceptable(imp: MongoImport, args: seq<string>, h: Collaborators) {
    && DatabaseAccepted(imp, h)
    && TypeAccepted(imp)
    && FieldSourcesAllowed(NormalisedInput(imp), imp.ingest.ignoreBlanks)
    && UpsertFieldsAccepted(imp, h)
    && ArgsAccepted(imp, args)
    && CollectionAccepted(imp, args, h)
  }

  predicate DatabaseAccepted(imp: MongoImport, h: Collaborators) {
    h.validDBName(DatabaseName(imp.tool.db))
  }

  predicate TypeAccepted(imp: MongoImport) {
    InputType(imp.input.inputType) in {CSV, TSV, JSON}
  }

  /** The input options with the type normalised, as the field-source rules see them. */
  function NormalisedInput(imp: MongoImport): InputOptions {
    imp.input.(inputType := InputType(imp.input.inputType))
  }

  predicate UpsertFieldsAccepted(imp: MongoImport, h: Collaborators) {
    imp.ingest.upsertFields != "" ==> h.validFields(Text.Split(imp.ingest.upsertFields, ','))
  }

  predicate ArgsAccepted(imp: MongoImport, args: seq<string>) {
    |args| <= 1 && (imp.input.file == "" || |args| == 0)
  }

  /** The collection a run with these options and arguments imports into. */
  function TargetCollection(imp: MongoImport, args: seq<string>, h: Collaborators): string {
    if imp.tool.collection == "" then CollectionFromFile(InputFile(imp.input.file, args), h)
    else imp.tool.collection
  }

  predicate CollectionAccepted(imp: MongoImport, args: seq<string>, h: Collaborators) {
    h.validCollectionName(TargetCollection(imp, args, h))
  }

  /** Upsert mode runs with one insertion worker, whatever was asked for. */
  lemma UpsertRunsOneWorker(imp: MongoImport, args: seq<string>, h: Collaborators)
    requires ValidateSettings(imp, args, h).Success?
    requires imp.ingest.upsert || imp.ingest.upsertFields != ""
    ensures ValidateSettings(imp, args, h).value.ingest.numInsertionWorkers == 1
    ensures ValidateSettings(imp, args, h).value.ingest.maintainInsertionOrder
  {
  }
}

=== FILE: insertion_worker.dfy ===
/** The per-worker read loop of `runInsertionWorker` (mongoimport/mongoimport.go), run
    sequentially over the events one worker observes, with its inserter abstract; the
    `upserter` inserter; and the rule by which `ingestDocuments` keeps the first worker
    error.  `filterIngestError` and `removeBlankFields` are not part of this model; they
    are parameters of the worker's configuration. */
module InsertionWorker {
  import opened Wrappers
  import ImportOptions

  /** What a worker's `select` observes next: a document from the channel, the channel
      closed, or the run dying after a sibling's fatal error. */
  datatype Event<D> = Received(doc: D) | ChannelClosed | Dying

  /** An inserter with state `S`: `Insert` and `Flush`, each returning an error or nil. */
  datatype Inserter<!S, !D, E> = Inserter(
    insert: (S, D) -> (S, Option<E>),
    flush: S -> (S, Option<E>))

  /** The worker's fixed configuration. */
  datatype WorkerConfig<!D, !E> = WorkerConfig(
    stopOnError: bool,
    ignoreBlanks: bool,
    filterIngestError: (bool, Option<E>) -> Option<E>,
    removeBlankFields: D -> D)

  /** How the loop ended: an insert's filtered error, the run dying, the channel closing
      (with the filtered result of `Flush`), or not yet, when the events run out. */
  datatype Exit<E> = InsertFailed(err: E) | Killed | Drained(flushErr: Option<E>) | StillReading

  /** The loop's outcome: how it ended, the insertion count, the inserter's last state. */
  datatype WorkerRun<S, E> = WorkerRun(exit: Exit<E>, insertionCount: nat, inserter: S)

  /** The error `runInsertionWorker` returns for a loop that has ended. */
  function Returned<E>(exit: Exit<E>): (r: Option<E>)
    requires !exit.StillReading?
    ensures exit.Killed? ==> r.None?
    ensures exit.InsertFailed? ==> r == Some(exit.err)
    ensures exit.Drained? ==> r == exit.flushErr
  {
    match exit
    case InsertFailed(e) => Some(e)
    case Killed => None
    case Drained(e) => e
  }

  /** A received document as it is handed to the inserter. */
  function Prepare<D, E>(cfg: WorkerConfig<D, E>, doc: D): D {
    if cfg.ignoreBlanks then cfg.removeBlankFields(doc) else doc
  }

  /** The read loop: each received document is inserted; a non-nil filtered error ends
      the loop with that error, otherwise the insertion count rises by one.  Dying ends
      the loop with nil and no flush; the channel closing ends it with the filtered
      result of `Flush`. */
  function RunWorker<S, D, E>(
    cfg: WorkerConfig<D, E>, ins: Inserter<S, D, E>, s: S, events: seq<Event<D>>, count: nat): (run: WorkerRun<S, E>)
    ensures run.insertionCount >= count
    ensures run.insertionCount - count <= |events|
    decreases |events|
  {
    if events == [] then
      WorkerRun(StillReading, count, s)
    else
      match events[0]
      case Dying => WorkerRun(Killed, count, s)
      case ChannelClosed =>
        var (s', err) := ins.flush(s);
        WorkerRun(Drained(cfg.filterIngestError(cfg.stopOnError, err)), count, s')
      case Received(doc) =>
        var (s', err) := ins.insert(s, Prepare(cfg, doc));
        var filtered := cfg.filterIngestError(cfg.stopOnError, err);
        if filtered.Some? then
          WorkerRun(InsertFailed(filtered.value), count, s')
        else
          RunWorker(cfg, ins, s', events[1..], count + 1)
  }

  // ---------------------------------------------------------------------------
  // A reference description of the loop

  /** The documents received before the first non-document event. */
  function LeadingDocs<D>(events: seq<Event<D>>): (docs: seq<D>)
    ensures |docs| <= |events|
    ensures forall i :: 0 <= i < |docs| ==> events[i] == Received(docs[i])
    ensures |docs| < |events| ==> !events[|docs|].Received?
    decreases |events|
  {
    if events == [] || !events[0].Received? then [] else [events[0].doc] + LeadingDocs(events[1..])
  }

  /** The first non-document event, if any. */
  function Terminal<D>(events: seq<Event<D>>): Option<Event<D>>
  {
    var k := |LeadingDocs(events)|;
    if k < |events| then Some(events[k]) else None
  }

  /** The inserter's state after inserting each (prepared) document in turn. */
  function AfterInserts<S, D, E>(cfg: WorkerConfig<D, E>, ins: Inserter<S, D, E>, s: S, docs: seq<D>): S
    decreases |docs|
  {
    if docs == [] then s
    else AfterInserts(cfg, ins, ins.insert(s, Prepare(cfg, docs[0])).0, docs[1..])
  }

  /** The filtered error of each of those inserts. */
  function FilteredErrors<S, D, E>(cfg: WorkerConfig<D, E>, ins: Inserter<S, D, E>, s: S, docs: seq<D>): (errs: seq<Option<E>>)
    ensures |errs| == |docs|
    decreases |docs|
  {
    if docs == [] then []
    else
      var (s', err) := ins.insert(s, Prepare(cfg, docs[0]));
      [cfg.filterIngestError(cfg.stopOnError, err)] + FilteredErrors(cfg, ins, s', docs[1..])
  }

  /** The number of nils before the first error. */
  function LeadingNils<E>(errs: seq<Option<E>>): (n: nat)
    ensures n <= |errs|
    ensures forall i :: 0 <= i < n ==> errs[i].None?
    ensures n < |errs| ==> errs[n].Some?
    decreases |errs|
  {
    if errs == [] || errs[0].Some? then 0 else 1 + LeadingNils(errs[1..])
  }

  /** The loop's outcome as the reference description gives it: the insertion count
      rises by exactly the number of documents inserted without a filtered error before
      the first one that has one; that first error ends the loop at once; otherwise the
      loop ends on the first non-document event, without a flush when dying and with one
      when the channel closes. */
  function Expected<S, D, E>(
    cfg: WorkerConfig<D, E>, ins: Inserter<S, D, E>, s: S, events: seq<Event<D>>, count: nat): WorkerRun<S, E>
  {
    var docs := LeadingDocs(events);
    var errs := FilteredErrors(cfg, ins, s, docs);
    var n := LeadingNils(errs);
    if n < |errs| then
      WorkerRun(InsertFailed(errs[n].value), count + n, AfterInserts(cfg, ins, s, docs[..n + 1]))
    else
      var after := AfterInserts(cfg, ins, s, docs);
      match Terminal(events)
      case None => WorkerRun(StillReading, count + n, after)
      case Some(e) =>
        if e.Dying? then WorkerRun(Killed, count + n, after)
        else
          var (s', err) := ins.flush(after);
          WorkerRun(Drained(cfg.filterIngestError(cfg.stopOnError, err)), count + n, s')
  }

  /** The reference description, unfolded by one received document. */
  lemma ExpectedStep<S, D, E>(
    cfg: WorkerConfig<D, E>, ins: Inserter<S, D, E>, s: S, events: seq<Event<D>>, count: nat)
    requires events != [] && events[0].Received?
    ensures
      var (s', err) := ins.insert(s, Prepare(cfg, events[0].doc));
      var filtered := cfg.filterIngestError(cfg.stopOnError, err);
      Expected(cfg, ins, s, events, count)
        == if filtered.Some? then WorkerRun(InsertFailed(filtered.value), count, s')
           else Expected(cfg, ins, s', events[1..], count + 1)
  {
    var doc := events[0].doc;
    var (s', err) := ins.insert(s, Prepare(cfg, doc));
    var filtered := cfg.filterIngestError(cfg.stopOnError, err);
    ReceivedUnfolds(cfg, ins, s, events);
    var docs := LeadingDocs(events);
    var errs := FilteredErrors(cfg, ins, s, docs);
    if filtered.Some? {
      assert LeadingNils(errs) == 0;
      assert docs[..1] == [doc];
      assert AfterInserts(cfg, ins, s, [doc]) == AfterInserts(cfg, ins, s', []);
    } else {
      var n := LeadingNils(errs);
      assert n == 1 + LeadingNils(errs[1..]);
      assert AfterInserts(cfg, ins, s, docs) == AfterInserts(cfg, ins, s', docs[1..]);
      if n < |errs| {
        assert docs[..n + 1][0] == doc;
        assert docs[..n + 1][1..] == docs[1..][..n];
      }
    }
  }

  /** What a leading received document contributes to the reference description. */
  lemma ReceivedUnfolds<S, D, E>(
    cfg: WorkerConfig<D, E>, ins: Inserter<S, D, E>, s: S, events: seq<Event<D>>)
    requires events != [] && events[0].Received?
    ensures
      var (s', err) := ins.insert(s, Prepare(cfg, events[0].doc));
      var docs := LeadingDocs(events);
      && docs == [events[0].doc] + LeadingDocs(events[1..])
      && docs[1..] == LeadingDocs(events[1..])
      && FilteredErrors(cfg, ins, s, docs)
         == [cfg.filterIngestError(cfg.stopOnError, err)] + FilteredErrors(cfg, ins, s', docs[1..])
      && FilteredErrors(cfg, ins, s, docs)[1..] == FilteredErrors(cfg, ins, s', docs[1..])
      && Terminal(events) == Terminal(events[1..])
  {
    var docs := LeadingDocs(events);
    assert docs == [events[0].doc] + LeadingDocs(events[1..]);
    assert docs[1..] == LeadingDocs(events[1..]);
  }

  /** The loop agrees with its reference description on every event sequence. */
  lemma {:induction false} RunWorkerCharacterised<S, D, E>(
    cfg: WorkerConfig<D, E>, ins: Inserter<S, D, E>, s: S, events: seq<Event<D>>, count: nat)
    ensures RunWorker(cfg, ins, s, events, count) == Expected(cfg, ins, s, events, count)
    decreases |events|
  {
    if events != [] && events[0].Received? {
      ExpectedStep(cfg, ins, s, events, count);
      var (s', err) := ins.insert(s, Prepare(cfg, events[0].doc));
      if cfg.filterIngestError(cfg.stopOnError, err).None? {
        RunWorkerCharacterised(cfg, ins, s', events[1..], count + 1);
      }
    }
  }

  /** Events after the loop has ended make no difference. */
  lemma {:induction false} LaterEventsIgnored<S, D, E>(
    cfg: WorkerConfig<D, E>, ins: Inserter<S, D, E>, s: S, events: seq<Event<D>>, later: seq<Event<D>>, count: nat)
    requires Terminal(events).Some?
    ensures RunWorker(cfg, ins, s, events + later, count) == RunWorker(cfg, ins, s, events, count)
    decreases |events|
  {
    assert events != [];
    assert (events + later)[0] == events[0];
    if events[0].Received? {
      assert (events + later)[1..] == events[1..] + later;
      assert Terminal(events[1..]) == Terminal(events);
      var (s', err) := ins.insert(s, Prepare(cfg, events[0].doc));
      LaterEventsIgnored(cfg, ins, s', events[1..], later, count + 1);
    }
  }

  // ---------------------------------------------------------------------------
  // The upserter

  /** A single write the upserter issues: a plain insert, or an upsert by `selector`. */
  datatype Write<D, Sel> = PlainInsert(doc: D) | Upsert(selector: Sel, doc: D)

  /** The write `upserter.Insert` issues for a document: an upsert when a selector can
      be built from the key fields, a plain insert when it cannot. */
  function UpserterWrite<D, Sel>(
    keys: seq<string>, doc: D, constructUpsertDocument: (seq<string>, D) -> Option<Sel>): (w: Write<D, Sel>)
    ensures w.doc == doc
    ensures w.PlainInsert? <==> constructUpsertDocument(keys, doc).None?
    ensures w.Upsert? ==> constructUpsertDocument(keys, doc) == Some(w.selector)
  {
    match constructUpsertDocument(keys, doc)
    case None => PlainInsert(doc)
    case Some(sel) => Upsert(sel, doc)
  }

  /** `upserter.Insert`: issues the document's write at once, adding it to the log of
      writes issued, and returns that write's error. */
  function UpserterInsert<D, Sel, E>(
    keys: seq<string>,
    constructUpsertDocument: (seq<string>, D) -> Option<Sel>,
    apply: Write<D, Sel> -> Option<E>,
    log: seq<Write<D, Sel>>, doc: D): (r: (seq<Write<D, Sel>>, Option<E>))
    ensures |r.0| == |log| + 1 && r.0[..|log|] == log
    ensures r.0[|log|].doc == doc
    ensures r.0[|log|].PlainInsert? <==> constructUpsertDocument(keys, doc).None?
    ensures r.0[|log|].Upsert? ==> constructUpsertDocument(keys, doc) == Some(r.0[|log|].selector)
    ensures r.1 == apply(r.0[|log|])
  {
    var w := UpserterWrite(keys, doc, constructUpsertDocument);
    (log + [w], apply(w))
  }

  /** `upserter.Flush`: nothing is buffered, so nothing is written and nil is returned. */
  function UpserterFlush<D, Sel, E>(apply: Write<D, Sel> -> Option<E>, log: seq<Write<D, Sel>>): (r: (seq<Write<D, Sel>>, Option<E>))
    ensures r.0 == log && r.1.None?
  {
    (log, None)
  }

  /** The upserter as an inserter whose state is the log of writes it has issued. */
  function Upserter<D, Sel, E>(
    keys: seq<string>,
    constructUpsertDocument: (seq<string>, D) -> Option<Sel>,
    apply: Write<D, Sel> -> Option<E>): Inserter<seq<Write<D, Sel>>, D, E>
  {
    Inserter(
      (log, doc) => UpserterInsert(keys, constructUpsertDocument, apply, log, doc),
      log => UpserterFlush(apply, log))
  }

  /** The writes the upserter issues for a sequence of documents, one per document. */
  function WritesFor<D, E, Sel>(
    cfg: WorkerConfig<D, E>, keys: seq<string>, docs: seq<D>,
    constructUpsertDocument: (seq<string>, D) -> Option<Sel>): (ws: seq<Write<D, Sel>>)
    ensures |ws| == |docs|
    ensures forall i :: 0 <= i < |docs| ==>
      ws[i] == UpserterWrite(keys, Prepare(cfg, docs[i]), constructUpsertDocument)
    decreases |docs|
  {
    if docs == [] then
      []
    else
      [UpserterWrite(keys, Prepare(cfg, docs[0]), constructUpsertDocument)]
        + WritesFor(cfg, keys, docs[1..], constructUpsertDocument)
  }

  lemma {:induction false} UpserterAfterInserts<D, Sel, E>(
    cfg: WorkerConfig<D, E>, keys: seq<string>,
    constructUpsertDocument: (seq<string>, D) -> Option<Sel>,
    apply: Write<D, Sel> -> Option<E>,
    log: seq<Write<D, Sel>>, docs: seq<D>)
    ensures AfterInserts(cfg, Upserter(keys, constructUpsertDocument, apply), log, docs)
      == log + WritesFor(cfg, keys, docs, constructUpsertDocument)
    decreases |docs|
  {
    if docs != [] {
      var ins := Upserter(keys, constructUpsertDocument, apply);
      var w := UpserterWrite(keys, Prepare(cfg, docs[0]), constructUpsertDocument);
      assert ins.insert(log, Prepare(cfg, docs[0])).0 == log + [w];
      assert AfterInserts(cfg, ins, log, docs) == AfterInserts(cfg, ins, log + [w], docs[1..]);
      UpserterAfterInserts(cfg, keys, constructUpsertDocument, apply, log + [w], docs[1..]);
      var rest := WritesFor(cfg, keys, docs[1..], constructUpsertDocument);
      assert WritesFor(cfg, keys, docs, constructUpsertDocument) == [w] + rest;
      assert (log + [w]) + rest == log + ([w] + rest);
    }
  }

  /** The upserter buffers nothing: when the run dies or the channel closes, every
      document the worker received has already been written, in order, one write per
      document; and closing the channel adds only the filtered nil of its `Flush`. */
  lemma UpserterLosesNothing<D, Sel, E>(
    cfg: WorkerConfig<D, E>, keys: seq<string>,
    constructUpsertDocument: (seq<string>, D) -> Option<Sel>,
    apply: Write<D, Sel> -> Option<E>,
    events: seq<Event<D>>, count: nat)
    requires
      var run := RunWorker(cfg, Upserter(keys, constructUpsertDocument, apply), [], events, count);
      run.exit.Killed? || run.exit.Drained?
    ensures
      var run := RunWorker(cfg, Upserter(keys, constructUpsertDocument, apply), [], events, count);
      && run.inserter == WritesFor(cfg, keys, LeadingDocs(events), constructUpsertDocument)
      && run.insertionCount == count + |LeadingDocs(events)|
      && (run.exit.Drained? ==> run.exit.flushErr == cfg.filterIngestError(cfg.stopOnError, None))
  {
    var ins := Upserter(keys, constructUpsertDocument, apply);
    RunWorkerCharacterised(cfg, ins, [], events, count);
    UpserterAfterInserts(cfg, keys, constructUpsertDocument, apply, [], LeadingDocs(events));
  }

  // ---------------------------------------------------------------------------
  // Choosing the inserter

  /** The inserter a worker builds: the upserter, or a buffered bulk inserter with the
      batch size as its document limit, continuing on error unless stopping on error,
      and asked to be unordered unless insertion order is kept. */
  datatype InserterChoice =
    | UseUpserter
    | UseBufferedBulk(docLimit: int, continueOnError: bool, unordered: bool)

  /** The inserter and the blank-field handling `runInsertionWorker` picks from the options. */
  function ChooseInserter(imp: ImportOptions.MongoImport): (r: (InserterChoice, bool))
    ensures r.0.UseUpserter? <==> imp.ingest.upsert
    ensures r.0.UseBufferedBulk? ==>
      && r.0.docLimit == imp.tool.bulkBufferSize
      && r.0.continueOnError == !imp.ingest.stopOnError
      && r.0.unordered == !imp.ingest.maintainInsertionOrder
    ensures r.1 <==> imp.ingest.ignoreBlanks && imp.input.inputType != ImportOptions.JSON
  {
    var ignoreBlanks := imp.ingest.ignoreBlanks && imp.input.inputType != ImportOptions.JSON;
    if imp.ingest.upsert then (UseUpserter, ignoreBlanks)
    else (UseBufferedBulk(imp.tool.bulkBufferSize, !imp.ingest.stopOnError, !imp.ingest.maintainInsertionOrder), ignoreBlanks)
  }

  /** After validation, a worker strips blanks exactly when asked to (JSON with
      `--ignoreBlanks` having been refused), a bulk inserter always gets a positive
      document limit, and the upserter is never paired with unordered writes. */
  lemma ValidatedChoice(imp: ImportOptions.MongoImport, args: seq<string>, h: ImportOptions.Collaborators)
    requires ImportOptions.ValidateSettings(imp, args, h).Success?
    ensures
      var v := ImportOptions.ValidateSettings(imp, args, h).value;
      var (choice, ignoreBlanks) := ChooseInserter(v);
      && ignoreBlanks == imp.ingest.ignoreBlanks
      && (choice.UseBufferedBulk? ==> choice.docLimit >= 1)
      && (choice.UseUpserter? ==> v.ingest.maintainInsertionOrder && v.ingest.numInsertionWorkers == 1)
  {
  }

  // ---------------------------------------------------------------------------
  // The first worker error

  /** The number of insertion workers `ingestDocuments` starts. */
  function PoolSize(numInsertionWorkers: int): (n: nat)
    ensures n >= 1
    ensures numInsertionWorkers >= 1 ==> n == numInsertionWorkers
    ensures numInsertionWorkers <= 0 ==> n == 1
  {
    if numInsertionWorkers <= 0 then 1 else numInsertionWorkers
  }

  /** `ingestDocuments`' error rule: the workers' results arrive in the order the
      workers take the mutex; the first non-nil one is kept and kills the run, and any
      later errors are dropped.  `kills` counts the calls to `Kill`. */
  method IngestDocuments<E>(numInsertionWorkers: int, results: seq<Option<E>>) returns (retErr: Option<E>, kills: nat)
    requires |results| == PoolSize(numInsertionWorkers)
    ensures retErr.None? <==> forall i :: 0 <= i < |results| ==> results[i].None?
    ensures retErr.Some? ==>
      exists i :: 0 <= i < |results| && results[i] == retErr && forall j :: 0 <= j < i ==> results[j].None?
    ensures kills == (if retErr.Some? then 1 else 0)
  {
    retErr := None;
    kills := 0;
    var i := 0;
    while i < |results|
      invariant 0 <= i <= |results|
      invariant retErr.None? <==> forall j :: 0 <= j < i ==> results[j].None?
      invariant retErr.Some? ==>
        exists k :: 0 <= k < i && results[k] == retErr && forall j :: 0 <= j < k ==> results[j].None?
      invariant kills == (if retErr.Some? then 1 else 0)
    {
      var err := results[i];
      if err.Some? && retErr.None? {
        retErr := err;
        kills := kills + 1;
      }
      i := i + 1;
    }
  }
}

=== FILE: text.dfy ===
/** The string helpers the option validator relies on: lower-casing, splitting on a
    separator and finding the last occurrence of a character. */
module Text {

  predicate IsAsciiUpper(c: char) {
    'A' <= c <= 'Z'
  }

  /** Lower-cases one character; only the ASCII letters A-Z are mapped. */
  function LowerChar(c: char): (r: char)
    ensures !IsAsciiUpper(r)
    ensures !IsAsciiUpper(c) ==> r == c
    ensures IsAsciiUpper(c) ==> r as int - c as int == 'a' as int - 'A' as int
  {
    if IsAsciiUpper(c) then (c as int + ('a' as int - 'A' as int)) as char else c
  }

  /** Lower-cases a string character by character, keeping its length. */
  function ToLower(s: string): (r: string)
    ensures |r| == |s|
    ensures forall i :: 0 <= i < |r| ==> !IsAsciiUpper(r[i])
    ensures forall i :: 0 <= i < |s| && !IsAsciiUpper(s[i]) ==> r[i] == s[i]
    ensures forall i :: 0 <= i < |s| && IsAsciiUpper(s[i]) ==>
      r[i] as int == s[i] as int + ('a' as int - 'A' as int)
    ensures r == [] <==> s == []
  {
    seq(|s|, i requires 0 <= i < |s| => LowerChar(s[i]))
  }

  /** Joins `parts` with `sep` between neighbours; the inverse of `Split`. */
  function Join(parts: seq<string>, sep: char): string
    requires |parts| >= 1
  {
    if |parts| == 1 then parts[0] else parts[0] + [sep] + Join(parts[1..], sep)
  }

  /** Splits `s` at every occurrence of `sep`.  Like Go's `strings.Split`, an empty
      string yields one empty part and adjacent separators yield empty parts. */
  function Split(s: string, sep: char): (parts: seq<string>)
    ensures |parts| >= 1
    ensures forall i :: 0 <= i < |parts| ==> sep !in parts[i]
    ensures Join(parts, sep) == s
    decreases |s|
  {
    if |s| == 0 then
      [""]
    else
      var rest := Split(s[1..], sep);
      if s[0] == sep then
        [""] + rest
      else
        var parts := [[s[0]] + rest[0]] + rest[1..];
        JoinExtendsFirst([s[0]], rest, sep);
        assert s == [s[0]] + s[1..];
        parts
  }

  /** Extending the first part extends the join by the same prefix. */
  lemma JoinExtendsFirst(x: string, parts: seq<string>, sep: char)
    requires |parts| >= 1
    ensures Join([x + parts[0]] + parts[1..], sep) == x + Join(parts, sep)
  {
  }

  /** Splitting yields one more part than there are separators. */
  lemma {:induction false} SplitCount(s: string, sep: char)
    ensures |Split(s, sep)| == multiset(s)[sep] + 1
    decreases |s|
  {
    if |s| > 0 {
      SplitCount(s[1..], sep);
      assert s == [s[0]] + s[1..];
      assert multiset(s) == multiset{s[0]} + multiset(s[1..]);
      var rest := Split(s[1..], sep);
      if s[0] == sep {
        assert multiset(s)[sep] == multiset(s[1..])[sep] + 1;
        assert |Split(s, sep)| == |rest| + 1;
      } else {
        assert multiset(s)[sep] == multiset(s[1..])[sep];
        assert |Split(s, sep)| == |rest|;
      }
    }
  }

  /** Splitting what was joined gives back the parts, as long as no part holds the separator. */
  lemma {:induction false} SplitJoin(parts: seq<string>, sep: char)
    requires |parts| >= 1
    requires forall i :: 0 <= i < |parts| ==> sep !in parts[i]
    ensures Split(Join(parts, sep), sep) == parts
    decreases |parts|, |parts[0]|
  {
    if |parts[0]| == 0 {
      if |parts| > 1 {
        assert Join(parts, sep) == [sep] + Join(parts[1..], sep);
        assert (Join(parts, sep))[1..] == Join(parts[1..], sep);
        SplitJoin(parts[1..], sep);
        assert parts == [""] + parts[1..];
      }
    } else {
      var c := parts[0][0];
      var tail := [parts[0][1..]] + parts[1..];
      assert tail[1..] == parts[1..];
      assert c != sep by { assert c in parts[0]; }
      forall i | 0 <= i < |tail|
        ensures sep !in tail[i]
      {
        if i == 0 {
          assert forall x :: x in parts[0][1..] ==> x in parts[0];
        } else {
          assert tail[i] == parts[i];
        }
      }
      SplitJoin(tail, sep);
      assert parts[0] == [c] + tail[0];
      assert parts == [[c] + tail[0]] + tail[1..];
      JoinExtendsFirst([c], tail, sep);
      var s := Join(parts, sep);
      assert s == [c] + Join(tail, sep);
      assert s[0] == c;
      assert s[1..] == Join(tail, sep);
    }
  }

  /** The index of the last `c` in `s`, or -1 when `s` holds no `c`. */
  function LastIndexOf(s: string, c: char): (i: int)
    ensures -1 <= i < |s|
    ensures i == -1 <==> c !in s
    ensures 0 <= i ==> s[i] == c && c !in s[i + 1..]
    decreases |s|
  {
    if |s| == 0 then
      -1
    else if s[|s| - 1] == c then
      assert s[|s|..] == [];
      |s| - 1
    else
      var i := LastIndexOf(s[..|s| - 1], c);
      assert s == s[..|s| - 1] + [s[|s| - 1]];
      if i == -1 then i
      else
        assert s[i + 1..] == s[..|s| - 1][i + 1..] + [s[|s| - 1]];
        i
  }
}

=== FILE: wrappers.dfy ===
/** Failure-compatible wrappers shared by the other modules. */
module Wrappers {

  /** An optional value; `None` plays the role of Go's `nil`. */
  datatype Option<+T> = None | Some(value: T)

  /** A value or an error, usable with `:-`. */
  datatype Result<+T, +E> = Success(value: T) | Failure(error: E) {

    predicate IsFailure() {
      Failure?
    }

    function PropagateFailure<U>(): Result<U, E>
      requires Failure?
    {
      Failure(error)
    }

    function Extract(): T
      requires Success?
    {
      value
    }
  }
}
